=== FILE: README.md ===
# ExtrudeUI style resolvers in Dafny

ExtrudeUI is a library of decorative 3D React components: text, buttons, images and loaded models, drawn with three.js. Almost everything it does is handing scene trees to the renderer. A thin layer of pure logic sits under that. It turns props into scene numbers, and one piece of it is a real string algorithm. This project models that layer and proves what it promises.

- **Words, TextWrap, TextLayout** model the extruded-text component (`ExtrudeUIComponents/src/components/Text.tsx`). They cover:
  - the greedy word wrapper;
  - the per-line length limit;
  - the box height;
  - the capped text scale;
  - the layout effect that stores these values;
  - the choice of material.
- **ButtonCalibration** models the button of the component package (`ExtrudeUIComponents/src/components/Button.tsx`). It covers:
  - the size table and the label-driven width;
  - the corner radius;
  - the click animations, counted in whole turns;
  - the disabled-gated handlers;
  - the container clamp;
  - the camera distance, field of view and stage offset;
  - the shadow fallbacks and the gradient surface.
- **PressableButton** models the button of the site (`ExtrudeUI/src/components/ExtrudeUIComponents/Button.tsx`). It covers:
  - the size table;
  - the hovered/pressed flags as an event machine;
  - the spring targets;
  - the glass/solid material.
- **FramedImage** and **BeveledImage** model the two image components. They cover:
  - the frame materials and boxes;
  - the z offsets and the picture layers;
  - the wobble choice;
  - the camera distance;
  - the shadow fallback;
  - the canvas height.
- **OwnModel** models the model viewer (`ExtrudeUI/src/components/ExtrudeUIComponents/OwnModel.tsx`). It covers:
  - the per-frame transform update, with its consequences over runs of frames;
  - the material pass over the scene graph;
  - the camera and orbit-control defaults.
- **Props** holds the two fallback idioms the components use:
  - destructuring defaults, which apply only to an absent prop;
  - JavaScript's `||`, which also replaces `0` and `""`.

  An absent prop is `None`. Props also holds the `animation` prop shared by the text and both images.

Modelling choices:
- Dimensions are `real`.
- Rotations of the package button are counted in turns (2π rad = 1 turn).
- The sine the bounce animation reads is a parameter in [-1, 1].
- NaN is spelled out as `None` where the source can produce it.
- String lengths are JavaScript's `length`, counted in UTF-16 code units (`Words.Utf16Length`): a character beyond U+FFFF counts two.

## Model

| member | source | states |
|---|---|---|
| Props.StageShadow | ExtrudeUIComponents/src/components/Button.tsx:393-397 | the shadow colour falls back to black and the opacity to the given default when absent, empty or zero; given values are kept; the result never has an empty colour |
| Props.Floating | ExtrudeUIComponents/src/components/Text.tsx:258 | the content floats exactly when the animation is `float` or absent (its default) |
| Props.SpinRendersStill | ExtrudeUIComponents/src/components/Image.tsx:177 | `spin` renders exactly like `none`: no floating and no motion of its own |
| Words.Split | ExtrudeUIComponents/src/components/Text.tsx:92 | splitting on single spaces yields at least one piece and no piece contains a space |
| Words.JoinSplit | ExtrudeUIComponents/src/components/Text.tsx:92 | the pieces joined with single spaces give back the original text, so the split loses nothing |
| Words.SplitJoin | ExtrudeUIComponents/src/components/Text.tsx:92 | splitting a space-join of at least one space-free word gives back exactly those words |
| Words.SplitFirst | ExtrudeUIComponents/src/components/Text.tsx:92 | appending a space and more text never changes the first word of a split |
| Words.Utf16Length | ExtrudeUIComponents/src/components/Text.tsx:98 | JavaScript's string length counts UTF-16 code units: at least one and at most two per character |
| Words.Utf16Plain | ExtrudeUIComponents/src/components/Text.tsx:98 | the UTF-16 length equals the character count exactly when no character lies beyond U+FFFF |
| Words.Utf16Append | ExtrudeUIComponents/src/components/Text.tsx:98 | the UTF-16 length of a concatenation is the sum of the lengths |
| Words.Utf16Unbreak | ExtrudeUIComponents/src/components/Text.tsx:107-110 | replacing line breaks by spaces keeps the UTF-16 length |
| TextWrap.Wrap | ExtrudeUIComponents/src/components/Text.tsx:92-105 | the imperative loop yields the lines of the greedy fold, measuring in UTF-16 code units; every line is non-empty; every line with a space fits the limit; there are no more lines than words; for single-spaced text every break is forced, as GreedyBreaks states |
| TextWrap.AstralExample | ExtrudeUIComponents/src/components/Text.tsx:96-105 | under a limit of 3, "😀 a" wraps into "😀" and "a", because the emoji counts two code units and "😀 a" measures 4 |
| TextWrap.LinesNonEmpty | ExtrudeUIComponents/src/components/Text.tsx:101-105 | no emitted line is empty, because only a non-empty current line is pushed |
| TextWrap.LinesFit | ExtrudeUIComponents/src/components/Text.tsx:98-102 | each line's UTF-16 length fits the limit or the line is a single word of the input; a line of two or more words always fits |
| TextWrap.LineCount | ExtrudeUIComponents/src/components/Text.tsx:92-105 | the number of lines never exceeds the number of space-separated pieces |
| TextWrap.RoundTrip | ExtrudeUIComponents/src/components/Text.tsx:92-107 | for single-spaced text the lines joined by spaces give back the text, so words keep their order; without line breaks in the input, turning each line break of the output into a space restores the input, of the same length |
| TextWrap.GreedyBreaks | ExtrudeUIComponents/src/components/Text.tsx:96-103 | greedy packing: for single-spaced text a line is broken only when the next line's first word, measured after a space, would have pushed the line over the limit |
| TextWrap.NarrowLimit | ExtrudeUIComponents/src/components/Text.tsx:98-102 | with a limit of 1 or less every non-empty word is alone on its own line, since even a line's first word is measured with a leading space |
| TextLayout.LineLimit | ExtrudeUIComponents/src/components/Text.tsx:90-98 | the limit never exceeds 30; for a positive font size it is the largest count of 35-unit characters fitting the width, capped at 30, and not negative for a non-negative width; a zero font size gives 30 for a positive width and 0 otherwise, a limit no line passes |
| TextLayout.LineLimitMonotone | ExtrudeUIComponents/src/components/Text.tsx:90-98 | a wider container never lowers the line limit |
| TextLayout.BoxHeight | ExtrudeUIComponents/src/components/Text.tsx:115 | the height is at least 100 and at least lines·fontSize·50, and equals one of the two |
| TextLayout.BoxHeightMonotone | ExtrudeUIComponents/src/components/Text.tsx:115 | for a positive font size more lines never give a shorter box |
| TextLayout.TextScale | ExtrudeUIComponents/src/components/Text.tsx:110 | the scale is NaN exactly for an empty text over a zero width; otherwise it lies in [0, 0.8], the scaled text fits the width, and below the cap it fills the width exactly |
| TextLayout.RelayoutAsWritten | ExtrudeUIComponents/src/components/Text.tsx:86-118 | the effect does nothing before the container is mounted; once mounted it stores the freshly wrapped text, the container width and the box height of the freshly wrapped lines (the larger of 100 and 50 per line at the font size), but the scale it stores comes from the UTF-16 length of the previously stored text |
| TextLayout.Relayout | ExtrudeUIComponents/src/components/Text.tsx:86-118 | the corrected effect: the stored scale is the scale for the UTF-16 length of the text it stores in the same step, and the stored height is the box height of the freshly wrapped lines |
| TextLayout.RelayoutConsistent | ExtrudeUIComponents/src/components/Text.tsx:86-118 | with the corrected effect the result depends only on the props and the width, never on the previous render; for single-spaced text without line breaks the scale is that of the text's own UTF-16 length; the box holds every line |
| TextLayout.StaleScaleExample | ExtrudeUIComponents/src/components/Text.tsx:107-110 | after laying out "a" in a 30-wide container at font size 1, switching to "a b" keeps the stale scale 0.8 where the shown text needs 0.4 |
| TextLayout.MaterialFor | ExtrudeUIComponents/src/components/Text.tsx:359-393 | a gradient always selects the shader-patched material; otherwise `wobble` selects the wobbling one, and its absence the distorting one |
| ButtonCalibration.ResolveDimensions | ExtrudeUIComponents/src/components/Button.tsx:82-113 | the width is the larger of the category's base width and the estimate for the label's UTF-16 length; height and font size come from the table |
| ButtonCalibration.WidthMonotone | ExtrudeUIComponents/src/components/Button.tsx:100-109 | a label with more UTF-16 code units never narrows the box, and height and font size do not depend on the label |
| ButtonCalibration.ShortLabelKeepsBaseWidth | ExtrudeUIComponents/src/components/Button.tsx:91-103 | labels of up to 11 UTF-16 code units keep the base width in every category, and so does the default label "Button" |
| ButtonCalibration.BaseDimensionsOrdered | ExtrudeUIComponents/src/components/Button.tsx:84-89 | about `BaseDimensions`: a larger category never has a smaller base width, height or font size |
| ButtonCalibration.RadiusFitsBox | ExtrudeUIComponents/src/components/Button.tsx:132-142 | about `CornerRadius`: the radius is positive and at most half the box height, and reaches it exactly for `pill`; an unknown shape gets the same radius as `rounded`, 0.5; the square radius does not depend on the height and is smaller than the rounded one |
| ButtonCalibration.AnimationEndsInPose | ExtrudeUIComponents/src/components/Button.tsx:144-158 | about `Animate`: spin adds one turn to y only and flip one turn to x only, so both come to rest in the starting pose; rock sets x to 0.05 turn (0.1π rad), which its timer returns to 0 (see RockClickReturns); `none` changes nothing |
| ButtonCalibration.EnabledStep | ExtrudeUIComponents/src/components/Button.tsx:196-214 | about `Step`: while enabled, pointer-over and pointer-out set and clear the hover flag and report it; the cursor follows; a click starts the animation and calls `onClick` exactly when one is given; a click schedules one rock timer exactly when the animation is `rock` |
| ButtonCalibration.DisabledRun | ExtrudeUIComponents/src/components/Button.tsx:196-214 | while disabled no sequence of events makes a call, and with no rock timer pending the state does not change |
| ButtonCalibration.RockReturns | ExtrudeUIComponents/src/components/Button.tsx:154 | a pending rock timer sets the x rotation back to 0, keeps the y rotation and the hover flag, and calls nothing, whatever the props |
| ButtonCalibration.RockClickReturns | ExtrudeUIComponents/src/components/Button.tsx:152-155 | on an enabled rock button a click tilts x to 0.05 turn, and the click followed by its timer leaves the button as it was apart from x, which is back at 0; `onClick` is called exactly when given |
| ButtonCalibration.TextFactor | ExtrudeUIComponents/src/components/Button.tsx:295-299 | the label factor lies in [1, 1.3] and is 1 for labels of at most 12 code units |
| ButtonCalibration.CameraDistance | ExtrudeUIComponents/src/components/Button.tsx:284-302 | an unmeasured viewport gives 5; once measured the camera is never closer than the category's base distance; from 1200 wide it is the base distance times the label factor, which is exactly the base for labels of at most 12 UTF-16 code units |
| ButtonCalibration.ScaleFactor | ExtrudeUIComponents/src/components/Button.tsx:294 | a fraction in (0, 1]: the viewport width over 1200 below 1200, and 1 from there on |
| ButtonCalibration.ScreenMultiplier | ExtrudeUIComponents/src/components/Button.tsx:296 | 1.5 exactly on screens narrower than 768 and 1 exactly from 768 on |
| ButtonCalibration.PulledBack | ExtrudeUIComponents/src/components/Button.tsx:287-301 | the category's base distance (`medium` when absent) times the label factor times the screen multiplier; never below the base distance; equal to base times label factor from 768 on |
| ButtonCalibration.CameraQuotient | ExtrudeUIComponents/src/components/Button.tsx:298-301 | once measured, the camera distance is exactly the pulled-back distance divided by the scale factor |
| ButtonCalibration.NarrowPulledBack | ExtrudeUIComponents/src/components/Button.tsx:296-301 | below 768 the pulled-back distance is 1.5 times the camera distance of a 1200-wide screen |
| ButtonCalibration.ScaledBack | ExtrudeUIComponents/src/components/Button.tsx:294-301 | below 1200 the division by the scale factor puts the camera strictly further back than the pulled-back distance |
| ButtonCalibration.NarrowScreenPullsBack | ExtrudeUIComponents/src/components/Button.tsx:294-301 | on a measured screen narrower than 768 the camera stands strictly more than 1.5 times as far back as on a 1200-wide screen |
| ButtonCalibration.CameraTextMonotone | ExtrudeUIComponents/src/components/Button.tsx:294-301 | a label with more UTF-16 code units never brings the camera closer |
| ButtonCalibration.CameraWidthMonotone | ExtrudeUIComponents/src/components/Button.tsx:294-301 | once measured, a wider viewport never pushes the camera further away |
| ButtonCalibration.FieldOfView | ExtrudeUIComponents/src/components/Button.tsx:305-312 | the field of view always lies between 40 and 60, and is 40 from a width of 768 |
| ButtonCalibration.FieldOfViewNarrowsWithWidth | ExtrudeUIComponents/src/components/Button.tsx:305-312 | for measured widths the field of view never widens as the viewport grows: 60 below 480, 52 below 768, 40 from 768; the unmeasured default equals the desktop value |
| ButtonCalibration.ClampedHeight | ExtrudeUIComponents/src/components/Button.tsx:273-281 | a CSS clamp height lies between its bounds, equals the viewport share whenever that share is within them, the minimum below it and the maximum above it |
| ButtonCalibration.ContainerOrdered | ExtrudeUIComponents/src/components/Button.tsx:274-280 | about `ContainerClamp`: on any viewport a larger category never gets a shorter container |
| ButtonCalibration.ButtonShadow | ExtrudeUIComponents/src/components/Button.tsx:393-397 | the button shadow never has zero opacity; an absent opacity becomes 0.7 |
| ButtonCalibration.StageZ | ExtrudeUIComponents/src/components/Button.tsx:389 | the stage sits at -1 exactly below a width of 768 and at -0.3 exactly from 768 |
| ButtonCalibration.StageFollowsScreen | ExtrudeUIComponents/src/components/Button.tsx:294-312 | a wider screen never moves the stage back; it steps back exactly where the screen multiplier pulls the camera back and, once measured, exactly where the field of view widens |
| ButtonCalibration.UnmeasuredDefaults | ExtrudeUIComponents/src/components/Button.tsx:284-312 | before the viewport is measured the camera stands at 5 with a 40 field of view, and the stage sits at the narrow-screen offset -1 |
| ButtonCalibration.Texture | ExtrudeUIComponents/src/components/Button.tsx:162-187 | a texture exists exactly when a gradient is given and a 2D context exists; a texture is a 256-pixel canvas with the gradient's two colours, marked for upload |
| ButtonCalibration.SurfaceCases | ExtrudeUIComponents/src/components/Button.tsx:231-235 | about `ButtonSurface`: without a gradient the box has the button colour and no texture; with one it is white and textured exactly when a context exists; it is transparent exactly when opacity is not 1 |
| ButtonCalibration.LabelZ | ExtrudeUIComponents/src/components/Button.tsx:243 | the label lies in front of the box's front face |
| PressableButton.SizeDimensions | ExtrudeUI/src/components/ExtrudeUIComponents/Button.tsx:43-47 | each of small, medium and large maps to its fixed width, height and font size |
| PressableButton.SizeProportions | ExtrudeUI/src/components/ExtrudeUIComponents/Button.tsx:43-47 | in every category the font size is a tenth of the width, the box is wider than tall, and the fixed radius 0.15 fits in half the height |
| PressableButton.EnabledTransitions | ExtrudeUI/src/components/ExtrudeUIComponents/Button.tsx:74-82 | about `Next`: while enabled: pointer-down sets only `pressed`; pointer-up clears only `pressed`; pointer-over sets only `hovered`; pointer-out clears both; a click changes no flag and calls `onClick` |
| PressableButton.DisabledFrozen | ExtrudeUI/src/components/ExtrudeUIComponents/Button.tsx:68-82 | while disabled no sequence of events changes a flag or calls `onClick` |
| PressableButton.EnabledClickCount | ExtrudeUI/src/components/ExtrudeUIComponents/Button.tsx:68-73 | while enabled `onClick` is called exactly once per click in the sequence |
| PressableButton.OutResets | ExtrudeUI/src/components/ExtrudeUIComponents/Button.tsx:77-82 | a sequence ending in pointer-out leaves the button neither hovered nor pressed, whatever came before |
| PressableButton.SpringTargets | ExtrudeUI/src/components/ExtrudeUIComponents/Button.tsx:49-51 | the scale target is 1.1 exactly when the hover prop and the hovered flag are both set, else 1; the y target is -0.15 exactly when pressed, else 0 |
| PressableButton.DisabledTargets | ExtrudeUI/src/components/ExtrudeUIComponents/Button.tsx:49-82 | a disabled button keeps its resting targets whatever the events |
| PressableButton.MaterialVariants | ExtrudeUI/src/components/ExtrudeUIComponents/Button.tsx:93-107 | about `ButtonMaterial`: glass transmits light and draws at 80 % of the opacity; solid transmits none and keeps the opacity; depth is written exactly for opacity 1 in both variants |
| PressableButton.ShadowPlane | ExtrudeUI/src/components/ExtrudeUIComponents/Button.tsx:63 | the shadow plane is wider than the button and deeper than its depth |
| PressableButton.LabelFor | ExtrudeUI/src/components/ExtrudeUIComponents/Button.tsx:110-112 | the label lies in front of the box's front face, at a font size a tenth of the box width |
| FramedImage.FrameMaterialTable | ExtrudeUIComponents/src/components/Image.tsx:88-123 | about `FrameMaterialFor`: only glass sets transmission and thickness, and only glossy a clearcoat roughness; every named style sets a clearcoat; an unknown style is a plain 0.7/0.2 material; metalness and roughness lie in [0, 1]; the default style is metal |
| FramedImage.FrameBox | ExtrudeUIComponents/src/components/Image.tsx:127-137 | a frame box exists exactly for a framed image; it is 2·frameWidth wider and taller than the image and 0.01 deeper than the depth |
| FramedImage.PictureInFrontOfFrame | ExtrudeUIComponents/src/components/Image.tsx:130-148 | about `ImageGroupZ`: a framed picture lies in front of the frame's front face for every depth; a positive frame width leaves a border; an unframed picture sits at z = depth |
| FramedImage.PictureMaterialFor | ExtrudeUIComponents/src/components/Image.tsx:153-169 | the wobbling material is chosen exactly when `wobble` is set and `frame` is not |
| FramedImage.CanvasDimensions | ExtrudeUIComponents/src/components/Image.tsx:233-244 | the canvas is as wide as the container and has the image's aspect ratio; a zero width gives zero height, a positive width a positive height |
| FramedImage.CanvasGrowsWithContainer | ExtrudeUIComponents/src/components/Image.tsx:233-244 | a wider container never gives a shorter canvas |
| BeveledImage.FrameParts | ExtrudeUI/src/components/ExtrudeUIComponents/Image.tsx:72-112 | about `OuterFrame` and `Bevel`: a framed image has two frame meshes, the outer box (twice the frame width larger than the picture) and the bevel (1.8 frame widths larger, a tenth deeper); an unframed image has none |
| BeveledImage.FrameGeometry | ExtrudeUI/src/components/ExtrudeUIComponents/Image.tsx:75-115 | about `OuterFrame`, `Bevel` and `ImageGroupZ`: the bevel is 0.2·frameWidth narrower and shorter than the outer frame and deeper than it, with lower roughness; a framed picture lies in front of both boxes' front faces; an unframed picture sits at z 0 |
| BeveledImage.PictureLayers | ExtrudeUI/src/components/ExtrudeUIComponents/Image.tsx:117-132 | the picture is drawn as two layers |
| BeveledImage.ShadowLayer | ExtrudeUI/src/components/ExtrudeUIComponents/Image.tsx:117-132 | the back layer is 0.98 of the picture's scale, at opacity 0.1, always transparent, 0.02 behind; the front layer keeps the given opacity and transparency |
| BeveledImage.CameraZ | ExtrudeUI/src/components/ExtrudeUIComponents/Image.tsx:203 | the camera stands at 1.5 times the larger side, with a missing or zero side read as 1 |
| BeveledImage.CameraFallbacks | ExtrudeUI/src/components/ExtrudeUIComponents/Image.tsx:203 | without sizes the camera stands at 1.5; a zero side is treated as an absent one |
| BeveledImage.ImageShadow | ExtrudeUI/src/components/ExtrudeUIComponents/Image.tsx:219-220 | an absent or zero shadow opacity becomes 0.5; any other is kept |
| BeveledImage.CanvasHeightAsWritten | ExtrudeUI/src/components/ExtrudeUIComponents/Image.tsx:159-170 | as written, the height is NaN exactly when a side is absent; otherwise it has the image's aspect ratio |
| BeveledImage.CanvasHeight | ExtrudeUI/src/components/ExtrudeUIComponents/Image.tsx:159-170 | corrected: with a missing side read as 1, the way the scene draws it, the canvas always has the aspect ratio of the drawn picture, and a zero container width gives zero height |
| BeveledImage.CanvasHeightMissingSide | ExtrudeUI/src/components/ExtrudeUIComponents/Image.tsx:159-170 | both heights agree when both sides are given; with neither side given the height as written is NaN where the corrected one equals the container width |
| OwnModel.FrameStep | ExtrudeUI/src/components/ExtrudeUIComponents/OwnModel.tsx:78-92 | before mounting nothing changes; rotation z and position x, z never change; only bounce moves the position, and keeps its height within 0.1 of zero; only the spins rotate |
| OwnModel.SpinHorizontalRun | ExtrudeUI/src/components/ExtrudeUIComponents/OwnModel.tsx:81-83 | over any run of frames a horizontal spin adds speed times the elapsed time to rotation y and changes nothing else |
| OwnModel.SpinVerticalRun | ExtrudeUI/src/components/ExtrudeUIComponents/OwnModel.tsx:84-86 | over any run of frames a vertical spin adds speed times the elapsed time to rotation x and changes nothing else |
| OwnModel.BounceRun | ExtrudeUI/src/components/ExtrudeUIComponents/OwnModel.tsx:87-88 | the bounce does not accumulate: the height is a tenth of the last frame's sine, within [-0.1, 0.1] |
| OwnModel.StillRun | ExtrudeUI/src/components/ExtrudeUIComponents/OwnModel.tsx:78-92 | unmounted, or with the float or no animation, no run of frames changes the transform |
| OwnModel.Floats | ExtrudeUI/src/components/ExtrudeUIComponents/OwnModel.tsx:125-135 | the floating wrapper is used exactly for the `float` animation, which is the default |
| OwnModel.OverrideSpec | ExtrudeUI/src/components/ExtrudeUIComponents/OwnModel.tsx:99-107 | about `Override`: every mesh with a material, the root included, gets the given metalness and roughness and casts and receives shadows; the tree's shape, node kinds and colours are kept; every other node is untouched |
| OwnModel.TunedIsFixed | ExtrudeUI/src/components/ExtrudeUIComponents/OwnModel.tsx:99-107 | a tree that already carries the settings is left exactly as it is |
| OwnModel.OverrideIdempotent | ExtrudeUI/src/components/ExtrudeUIComponents/OwnModel.tsx:95-110 | applying the material pass twice equals applying it once |
| OwnModel.OverrideLastWins | ExtrudeUI/src/components/ExtrudeUIComponents/OwnModel.tsx:95-110 | a pass over an already tuned tree equals a single pass with the newer settings |
| OwnModel.OrbitControls | ExtrudeUI/src/components/ExtrudeUIComponents/OwnModel.tsx:142-151 | orbit controls exist exactly when enabled, which is off by default; given settings replace the default object whole |
| OwnModel.ModelCamera | ExtrudeUI/src/components/ExtrudeUIComponents/OwnModel.tsx:187-192 | the camera stands at the given distance, 7 by default, with a 50 field of view and near plane before far plane |
| OwnModel.OrbitDefaults | ExtrudeUI/src/components/ExtrudeUIComponents/OwnModel.tsx:141-151 | by default the camera at 7 lies inside the default orbit distance range 2..20; controls are off unless enabled; settings naming only the zoom flag leave the distance range unset instead of falling back to 2..20 |
| OwnModel.ModelShadow | ExtrudeUI/src/components/ExtrudeUIComponents/OwnModel.tsx:209-210 | an absent or zero shadow opacity becomes 0.5 and an absent or empty colour black; any other opacity is kept |
| OwnModel.SceneDefaults | ExtrudeUI/src/components/ExtrudeUIComponents/OwnModel.tsx:59-73 | with no props the model floats, its frame handler never moves it, and every mesh gets metalness 0.5 and roughness 0.2 |

## Left out

- All JSX rendering is left out: the three.js, drei and fiber scene nodes, `Stage`, `Float`, `Text3D`, lights and `Suspense`. Their behaviour is in foreign libraries. Only the numbers and choices handed to them are modelled.
- react-spring interpolation (mass, tension, friction) is left out. Only the spring targets are modelled.
- The GLSL patch of the text shader is left out. So is the pixel content of the gradient canvas, because it is GPU and canvas output. Which material is chosen, and whether a texture exists, are modelled.
- Timing and event plumbing are left out:
  - the 200 ms delay of the rock animation's `setTimeout`: the timer is modelled as a pending `RockTimerFires` event that may come at any later point in the event sequence, and RockReturns and RockClickReturns state what it does;
  - resize listeners and `ResizeObserver`, whose measured values are parameters;
  - `useFrame` scheduling, where each frame is a tick carrying its delta and sine;
  - asset, font and model loading.
- The loading indicators and their CSS keyframes are left out, because they are presentation only.
- OwnModel.OverrideSpec does not promise that the loaded scene itself stays untouched. The scene is cloned first, but a three.js clone shares its material objects, so the pass also writes into the loaded scene's materials. The model states the result tree only.
- Meshes with arrays of materials are not modelled. In the model, each mesh of the scene graph has at most one material.
- IEEE-754 rounding is not modelled. Dimensions are exact reals. Infinity and NaN are modelled only where the source visibly produces them: the zero font size in `TextLayout.LineLimit`, the empty text in `TextLayout.TextScale`, and the absent sides in `BeveledImage.CanvasHeightAsWritten`.
- TextLayout.TextScale requires a non-negative width and font size. A negative font size yields negative scales, which is not a meaningful input.
- FramedImage.CanvasDimensions requires positive image sides. Zero sides give an infinite or NaN aspect ratio, which is not modelled. In that component the canvas size is computed but never used.
- BeveledImage.CanvasHeight and BeveledImage.CanvasHeightAsWritten require any given side to be positive, for the same reason.
- ButtonCalibration.ResolveDimensions covers the four known sizes only. Neither button checks `size` before the table lookup: an unrecognised value makes the lookup `undefined`, and reading its `fontSize` throws a TypeError. The closed `Size` type cannot hold such a value, so that error path is not modelled.
- PressableButton.SizeDimensions covers small, medium and large only. An unrecognised `size` makes the lookup `undefined`, and reading `dimensions.width` throws a TypeError; the closed size type leaves that error path out.
- ButtonCalibration.FieldOfViewNarrowsWithWidth is stated for measured widths only. The unmeasured default (40, at width 0) is below the narrow-screen value (60, at width 1), so the field of view is not monotone across 0.
- The motion inside the `float` animation of the images and the text is left out: it is the drei `Float` helper, with no logic of its own. Which content floats is modelled by Props.Floating. The `spin` value has no implementation anywhere; it falls into the non-floating branch and renders exactly like `none` (Props.SpinRendersStill).
- The model viewer's `position`, `rotation` and `scale` props are left out, beyond the transform the frame handler writes.
- The drop-down component is left out, because it is an unfinished stub with no logic. So are the playground page and the documentation-site configuration, which are markup and configuration.

## Findings

| source | as written | input that shows it | evidently intended | confidence | as-written member | corrected member |
|---|---|---|---|---|---|---|
| ExtrudeUIComponents/src/components/Text.tsx:110 | the scale divides by the length of `wrappedText`, the state of the previous render, while the lines just computed are stored in the same step | lay out "a" in a 30-wide container at font size 1, then change the text to "a b": the stored scale stays 0.8 where 3 code units need 30 / (3·25) = 0.4 | compute the scale from the newly joined lines | medium, not executed | TextLayout.RelayoutAsWritten (exhibited by TextLayout.StaleScaleExample) | TextLayout.Relayout (proved by TextLayout.RelayoutConsistent) |
| ExtrudeUI/src/components/ExtrudeUIComponents/Image.tsx:160 | the aspect ratio divides the raw `props.width` by `props.height`, which are `undefined` when omitted, although the scene draws an omitted side as 1 | an image with neither `width` nor `height`: the height is NaN and the container gets the style `NaNpx` | read a missing side as 1, as the inner scene and the camera do | medium, not executed | BeveledImage.CanvasHeightAsWritten (exhibited by BeveledImage.CanvasHeightMissingSide) | BeveledImage.CanvasHeight |

=== FILE: beveled_image.dfy ===
/** The image of the site: a picture with a faint enlarged copy behind it,
    optionally set in a frame made of an outer box and a narrower, deeper
    bevel box; the camera and the canvas height follow the image size. */
module BeveledImage {
  import opened Props

  /** A box mesh: its size and the z of its centre. */
  datatype Box = Box(width: real, height: real, depth: real, z: real)

  /** The physical material of a frame box. */
  datatype FrameMaterial = FrameMaterial(metalness: real, roughness: real, clearcoat: real,
                                         clearcoatRoughness: real, reflectivity: real)

  datatype FramePart = FramePart(box: Box, material: FrameMaterial)

  /** The outer frame box. */
  function OuterFrame(width: real, height: real, depth: real, frameWidth: real): FramePart
  {
    FramePart(Box(width + frameWidth * 2.0, height + frameWidth * 2.0, depth, -depth / 2.0),
              FrameMaterial(0.7, 0.2, 1.0, 0.1, 1.0))
  }

  /** The bevel box laid over the outer frame. */
  function Bevel(width: real, height: real, depth: real, frameWidth: real): FramePart
  {
    FramePart(Box(width + frameWidth * 1.8, height + frameWidth * 1.8, depth * 1.1, -depth / 2.0 + 0.001),
              FrameMaterial(0.8, 0.1, 1.0, 0.1, 1.0))
  }

  /** The frame meshes: none for an unframed image, else outer box and bevel. */
  function FrameParts(frame: bool, width: real, height: real, depth: real, frameWidth: real): (parts: seq<FramePart>)
    ensures |parts| == if frame then 2 else 0
    ensures frame ==> parts[0] == OuterFrame(width, height, depth, frameWidth)
                      && parts[1] == Bevel(width, height, depth, frameWidth)
    ensures frame ==> parts[0].box.width - width == 2.0 * frameWidth
                      && parts[0].box.height - height == 2.0 * frameWidth
                      && parts[1].box.width - width == 1.8 * frameWidth
                      && parts[1].box.height - height == 1.8 * frameWidth
                      && parts[1].box.depth == depth * 1.1
  {
    if frame then [OuterFrame(width, height, depth, frameWidth), Bevel(width, height, depth, frameWidth)]
    else []
  }

  /** The z of the group holding the picture. */
  function ImageGroupZ(frame: bool, depth: real): real
  {
    if frame then depth / 2.0 + 0.001 else 0.0
  }

  /** The bevel is narrower than the outer frame by a tenth of the frame
      width on each side and a tenth deeper, it is shinier, and a framed
      picture sits in front of both boxes' front faces. */
  lemma FrameGeometry(width: real, height: real, depth: real, frameWidth: real)
    requires frameWidth > 0.0 && depth > 0.0
    ensures var outer := OuterFrame(width, height, depth, frameWidth).box;
            var bevel := Bevel(width, height, depth, frameWidth).box;
            && bevel.width < outer.width && bevel.height < outer.height
            && outer.width - bevel.width == 0.2 * frameWidth
            && bevel.depth > outer.depth
            && ImageGroupZ(true, depth) > outer.z + outer.depth / 2.0
            && ImageGroupZ(true, depth) > bevel.z + bevel.depth / 2.0
    ensures Bevel(width, height, depth, frameWidth).material.roughness
              < OuterFrame(width, height, depth, frameWidth).material.roughness
    ensures ImageGroupZ(false, depth) == 0.0
  {
  }

  /** One drawn copy of the picture: its scale, opacity and z within the
      image group. */
  datatype Layer = Layer(scaleX: real, scaleY: real, opacity: real, z: real, transparent: bool)

  /** The faint copy behind the picture, then the picture itself. */
  function PictureLayers(width: real, height: real, opacity: real, transparent: bool): (layers: seq<Layer>)
    ensures |layers| == 2
  {
    [Layer(width * 0.98, height * 0.98, 0.1, -0.02, true),
     Layer(width, height, opacity, 0.0, transparent)]
  }

  /** The shadow copy is 98 % of the picture's size, at opacity 0.1, always
      transparent, and 0.02 behind the picture. */
  lemma ShadowLayer(width: real, height: real, opacity: real, transparent: bool)
    ensures var layers := PictureLayers(width, height, opacity, transparent);
            && layers[0].scaleX == 0.98 * layers[1].scaleX
            && layers[0].scaleY == 0.98 * layers[1].scaleY
            && layers[0].opacity == 0.1 && layers[0].transparent
            && layers[1].z - layers[0].z == 0.02
            && layers[1].opacity == opacity && layers[1].transparent == transparent
    ensures width > 0.0 ==> PictureLayers(width, height, opacity, transparent)[0].scaleX < width
  {
  }

  /** The camera distance: 1.5 times the larger side, where a missing or
      zero side counts as 1 (`width || 1`). */
  function CameraZ(width: Option<real>, height: Option<real>): (z: real)
    ensures z >= 1.5 * NumberOr(width, 1.0) && z >= 1.5 * NumberOr(height, 1.0)
    ensures z == 1.5 * NumberOr(width, 1.0) || z == 1.5 * NumberOr(height, 1.0)
  {
    var w, h := NumberOr(width, 1.0), NumberOr(height, 1.0);
    (if w > h then w else h) * 1.5
  }

  /** Without a size the camera stands at 1.5; an absent side and a zero side
      are treated alike. */
  lemma CameraFallbacks(width: Option<real>, height: Option<real>)
    ensures CameraZ(None, None) == 1.5
    ensures CameraZ(Some(0.0), height) == CameraZ(None, height)
    ensures CameraZ(width, Some(0.0)) == CameraZ(width, None)
  {
  }

  /** The contact shadow: `shadowColor || '#000000'`, `shadowOpacity || 0.5`. */
  function ImageShadow(color: Option<string>, opacity: Option<real>): (s: ShadowSpec)
    ensures (opacity.None? || opacity.value == 0.0) ==> s.opacity == 0.5
    ensures opacity.Some? && opacity.value != 0.0 ==> s.opacity == opacity.value
  {
    StageShadow(color, opacity, 0.5)
  }

  /** The canvas height as the component computes it:
      `containerWidth / (props.width / props.height)` on the RAW props.
      `None` stands for NaN, which is what an absent side (undefined)
      produces; the inner scene meanwhile draws a missing side as 1. */
  function CanvasHeightAsWritten(containerWidth: real, width: Option<real>, height: Option<real>): (h: Option<real>)
    requires width.Some? ==> width.value > 0.0
    requires height.Some? ==> height.value > 0.0
    ensures h.None? <==> width.None? || height.None?
    ensures h.Some? ==> h.value * width.value == containerWidth * height.value
  {
    if width.None? || height.None? then None
    else Some(containerWidth / (width.value / height.value))
  }

  /** The canvas height with the scene's own defaults (a missing side is 1):
      the canvas always has the aspect ratio of the picture drawn in it. */
  function CanvasHeight(containerWidth: real, width: Option<real>, height: Option<real>): (h: real)
    requires width.Some? ==> width.value > 0.0
    requires height.Some? ==> height.value > 0.0
    ensures h * Default(width, 1.0) == containerWidth * Default(height, 1.0)
    ensures width.None? && height.None? ==> h == containerWidth
    ensures containerWidth == 0.0 ==> h == 0.0
  {
    var w, h := Default(width, 1.0), Default(height, 1.0);
    containerWidth / (w / h)
  }

  /** Both computations agree whenever both sides are given; with a side
      missing the computation as written yields NaN (an unusable
      `NaNpx` height) although the picture is drawn at size 1. */
  lemma CanvasHeightMissingSide(containerWidth: real, width: Option<real>, height: Option<real>)
    requires width.Some? ==> width.value > 0.0
    requires height.Some? ==> height.value > 0.0
    ensures width.Some? && height.Some? ==>
              CanvasHeightAsWritten(containerWidth, width, height) == Some(CanvasHeight(containerWidth, width, height))
    ensures CanvasHeightAsWritten(containerWidth, None, None).None?
    ensures CanvasHeight(containerWidth, None, None) == containerWidth
  {
    if width.Some? && height.Some? {
      var a, b := CanvasHeightAsWritten(containerWidth, width, height).value,
                  CanvasHeight(containerWidth, width, height);
      assert a * width.value == b * width.value;
    }
  }
}

=== FILE: button_calibration.dfy ===
/** The extruded button of the component package: its size categories, the
    box it draws around its label, the corner radius of each shape, the
    rotation a click starts, the pointer handlers gated by `disabled`, and the
    camera the surrounding canvas is calibrated with from the viewport width.
    Rotations are counted in whole turns (one turn is 2π radians). */
module ButtonCalibration {
  import opened Props
  import opened Words
  import opened RealFacts

  datatype Size = Small | Medium | Large | XLarge

  /** Position of a size in the order small < medium < large < xlarge. */
  function Rank(s: Size): nat
  {
    match s
    case Small => 0
    case Medium => 1
    case Large => 2
    case XLarge => 3
  }

  datatype Dimensions = Dimensions(width: real, height: real, fontSize: real)

  /** The base box and label size of each category. */
  function BaseDimensions(s: Size): Dimensions
  {
    match s
    case Small => Dimensions(8.0, 2.4, 0.8)
    case Medium => Dimensions(10.0, 3.0, 1.0)
    case Large => Dimensions(12.0, 3.6, 1.2)
    case XLarge => Dimensions(14.0, 4.2, 1.4)
  }

  /** How strongly the label length widens the box, per category. */
  function SizeMultiplier(s: Size): real
  {
    match s
    case Small => 0.8
    case Medium => 1.0
    case Large => 1.2
    case XLarge => 1.4
  }

  /** The width a label of `length` UTF-16 code units is estimated to need. */
  function LabelWidth(s: Size, length: nat): real
  {
    (length as real) * (BaseDimensions(s).fontSize * 0.6) * SizeMultiplier(s)
  }

  /** The label, `'Button'` when the prop is absent. */
  function Label(text: Option<string>): string
  {
    Default(text, "Button")
  }

  /** The box of a button: as wide as the base width or the label estimate,
      whichever is larger; height and font size straight from the table. */
  function ResolveDimensions(s: Size, text: string): (d: Dimensions)
    ensures d.width >= BaseDimensions(s).width
    ensures d.width >= LabelWidth(s, Utf16Length(text))
    ensures d.width == BaseDimensions(s).width || d.width == LabelWidth(s, Utf16Length(text))
    ensures d.height == BaseDimensions(s).height
    ensures d.fontSize == BaseDimensions(s).fontSize
  {
    var base := BaseDimensions(s);
    var estimate := LabelWidth(s, Utf16Length(text));
    Dimensions(if base.width > estimate then base.width else estimate, base.height, base.fontSize)
  }

  /** A longer label never makes the box narrower; only the width depends on
      the label. */
  lemma WidthMonotone(s: Size, t1: string, t2: string)
    requires Utf16Length(t1) <= Utf16Length(t2)
    ensures ResolveDimensions(s, t1).width <= ResolveDimensions(s, t2).width
    ensures ResolveDimensions(s, t1).height == ResolveDimensions(s, t2).height
    ensures ResolveDimensions(s, t1).fontSize == ResolveDimensions(s, t2).fontSize
  {
    var k := BaseDimensions(s).fontSize * 0.6;
    assert (Utf16Length(t1) as real) * k <= (Utf16Length(t2) as real) * k;
  }

  /** Labels of up to 11 code units keep the base width in every category,
      and so does the default label "Button". */
  lemma ShortLabelKeepsBaseWidth(s: Size, text: string)
    requires Utf16Length(text) <= 11
    ensures ResolveDimensions(s, text).width == BaseDimensions(s).width
    ensures ResolveDimensions(s, Label(None)).width == BaseDimensions(s).width
  {
    ShortLabelWidth(s, Utf16Length(text));
    Utf16Plain("Button");
    ShortLabelWidth(s, Utf16Length(Label(None)));
  }

  lemma ShortLabelWidth(s: Size, n: nat)
    requires n <= 11
    ensures LabelWidth(s, n) < BaseDimensions(s).width
  {
    var k := BaseDimensions(s).fontSize * 0.6 * SizeMultiplier(s);
    assert LabelWidth(s, n) == (n as real) * k;
    assert (n as real) * k <= 11.0 * k;
  }

  /** A larger category never has a smaller base box or label. */
  lemma BaseDimensionsOrdered(a: Size, b: Size)
    requires Rank(a) <= Rank(b)
    ensures BaseDimensions(a).width <= BaseDimensions(b).width
    ensures BaseDimensions(a).height <= BaseDimensions(b).height
    ensures BaseDimensions(a).fontSize <= BaseDimensions(b).fontSize
  {
  }

  datatype Shape = Rounded | Square | Pill | OtherShape(name: string)

  /** The corner radius of the rounded box; unknown shapes fall back to the
      rounded radius. */
  function CornerRadius(shape: Shape, height: real): real
  {
    match shape
    case Square => 0.01
    case Pill => height / 2.0
    case _ => 0.5
  }

  /** On every category's box the radius fits within half the height, so
      the rounded corners never overlap; only the pill reaches it, giving
      fully round ends. An unrecognised shape is drawn as `rounded`. */
  lemma RadiusFitsBox(shape: Shape, s: Size, text: string, name: string, h1: real, h2: real)
    ensures var h := ResolveDimensions(s, text).height;
            0.0 < CornerRadius(shape, h) <= h / 2.0
            && (CornerRadius(shape, h) == h / 2.0 <==> shape == Pill)
    ensures CornerRadius(OtherShape(name), h1) == CornerRadius(Rounded, h1) == 0.5
    ensures CornerRadius(Square, h1) == CornerRadius(Square, h2) < CornerRadius(Rounded, h2)
    ensures CornerRadius(Pill, h1) * 2.0 == h1
  {
  }

  /** The accumulated rotation of the button, in turns. */
  datatype Rotation = Rotation(x: real, y: real)

  datatype Animation = Spin | Flip | Rock | NoAnimation

  /** The tilt of the rock animation: 0.1π radians. */
  const RockTilt: real := 0.05

  /** The rotation a click starts. */
  function Animate(a: Animation, r: Rotation): Rotation
  {
    match a
    case Spin => Rotation(r.x, r.y + 1.0)
    case Flip => Rotation(r.x + 1.0, r.y)
    case Rock => Rotation(RockTilt, r.y)
    case NoAnimation => r
  }

  /** The visible pose: each angle modulo a full turn. */
  function Pose(r: Rotation): (p: (real, real))
    ensures 0.0 <= p.0 < 1.0 && 0.0 <= p.1 < 1.0
  {
    (r.x - r.x.Floor as real, r.y - r.y.Floor as real)
  }

  lemma FloorShift(v: real)
    ensures (v + 1.0).Floor == v.Floor + 1
  {
    var f := v.Floor;
    assert (f + 1) as real <= v + 1.0 < (f + 2) as real;
  }

  /** Spin and flip add exactly one full turn about their own axis, so the
      button comes to rest in the pose it started from; rock tilts about
      the x axis only; `none` leaves the rotation alone. */
  lemma AnimationEndsInPose(a: Animation, r: Rotation)
    ensures a != Rock ==> Pose(Animate(a, r)) == Pose(r)
    ensures a == Spin ==> Animate(a, r).y == r.y + 1.0 && Animate(a, r).x == r.x
    ensures a == Flip ==> Animate(a, r).x == r.x + 1.0 && Animate(a, r).y == r.y
    ensures a == Rock ==> Animate(a, r).x == RockTilt && Animate(a, r).y == r.y
    ensures a == NoAnimation ==> Animate(a, r) == r
  {
    FloorShift(r.x);
    FloorShift(r.y);
  }

  /** The per-instance state: whether the pointer is over the button (held
      both by the button and, through `onHover`, by its container) and the
      rotation, plus the number of rock timers still to fire. */
  datatype ButtonState = ButtonState(hovered: bool, rotation: Rotation, rockTimers: nat)

  const Idle: ButtonState := ButtonState(false, Rotation(0.0, 0.0), 0)

  /** The props the handlers read. */
  datatype Handlers = Handlers(disabled: bool, animation: Animation, hasOnClick: bool)

  datatype Event = Click | PointerOver | PointerOut | RockTimerFires

  /** A call into user code or into the container. */
  datatype Callback = OnClick | OnHover(hovered: bool)

  datatype Outcome = Outcome(state: ButtonState, calls: seq<Callback>)

  /** One event. Click, pointer-over and pointer-out do nothing at all while
      disabled; the rock timer (200 ms after a rock click) returns the tilt to
      0 whatever the props. */
  function Step(h: Handlers, st: ButtonState, e: Event): Outcome
  {
    match e
    case Click =>
      if h.disabled then Outcome(st, [])
      else
        var timers := if h.animation == Rock then st.rockTimers + 1 else st.rockTimers;
        Outcome(ButtonState(st.hovered, Animate(h.animation, st.rotation), timers),
                if h.hasOnClick then [OnClick] else [])
    case PointerOver =>
      if h.disabled then Outcome(st, []) else Outcome(st.(hovered := true), [OnHover(true)])
    case PointerOut =>
      if h.disabled then Outcome(st, []) else Outcome(st.(hovered := false), [OnHover(false)])
    case RockTimerFires =>
      if st.rockTimers == 0 then Outcome(st, [])
      else Outcome(ButtonState(st.hovered, Rotation(0.0, st.rotation.y), st.rockTimers - 1), [])
  }

  /** A sequence of events, the calls made in order. */
  function Run(h: Handlers, st: ButtonState, events: seq<Event>): Outcome
    decreases |events|
  {
    if events == [] then Outcome(st, [])
    else
      var first := Step(h, st, events[0]);
      var rest := Run(h, first.state, events[1..]);
      Outcome(rest.state, first.calls + rest.calls)
  }

  /** The container's cursor: a pointer while hovered and enabled. */
  function Cursor(st: ButtonState, h: Handlers): string
  {
    if st.hovered && !h.disabled then "pointer" else "default"
  }

  /** Each handler, while enabled: over and out set and clear the hover flag
      and report it, a click rotates and calls `onClick` when given, and
      nothing else changes. */
  lemma EnabledStep(h: Handlers, st: ButtonState)
    requires !h.disabled
    ensures Step(h, st, PointerOver) == Outcome(st.(hovered := true), [OnHover(true)])
    ensures Step(h, st, PointerOut) == Outcome(st.(hovered := false), [OnHover(false)])
    ensures Cursor(Step(h, st, PointerOver).state, h) == "pointer"
    ensures Cursor(Step(h, st, PointerOut).state, h) == "default"
    ensures Step(h, st, Click).state.rotation == Animate(h.animation, st.rotation)
    ensures Step(h, st, Click).state.hovered == st.hovered
    ensures (OnClick in Step(h, st, Click).calls) <==> h.hasOnClick
    ensures Step(h, st, Click).state.rockTimers == st.rockTimers + (if h.animation == Rock then 1 else 0)
  {
  }

  /** A pending rock timer returns the tilt to 0, keeps the turn about the
      y axis and the hover flag, and calls nothing, whatever the props. */
  lemma RockReturns(h: Handlers, st: ButtonState)
    requires st.rockTimers > 0
    ensures Step(h, st, RockTimerFires)
              == Outcome(ButtonState(st.hovered, Rotation(0.0, st.rotation.y), st.rockTimers - 1), [])
  {
  }

  /** A rock click on an enabled button, followed by its timer, tilts the
      button and brings it back: the only trace left is the tilt reset to 0. */
  lemma RockClickReturns(h: Handlers, st: ButtonState)
    requires !h.disabled && h.animation == Rock
    ensures Step(h, st, Click).state.rotation == Rotation(RockTilt, st.rotation.y)
    ensures Run(h, st, [Click, RockTimerFires]).state == st.(rotation := Rotation(0.0, st.rotation.y))
    ensures Run(h, st, [Click, RockTimerFires]).calls == (if h.hasOnClick then [OnClick] else [])
  {
    var first := Step(h, st, Click);
    assert first.state == ButtonState(st.hovered, Rotation(RockTilt, st.rotation.y), st.rockTimers + 1);
    var second := Step(h, first.state, RockTimerFires);
    assert second == Outcome(st.(rotation := Rotation(0.0, st.rotation.y)), []);
    assert [Click, RockTimerFires][1..] == [RockTimerFires];
    assert [RockTimerFires][1..] == [];
    assert Run(h, first.state, [RockTimerFires]) == Outcome(second.state, second.calls + []);
  }

  /** A disabled button makes no call, whatever the events, and with no rock
      timer outstanding its state does not change at all. */
  lemma {:induction false} DisabledRun(h: Handlers, st: ButtonState, events: seq<Event>)
    requires h.disabled
    ensures Run(h, st, events).calls == []
    ensures st.rockTimers == 0 ==> Run(h, st, events).state == st
    decreases |events|
  {
    if events != [] {
      DisabledRun(h, Step(h, st, events[0]).state, events[1..]);
    }
  }

  /** Base camera distance per category. */
  function BaseDistance(s: Size): (d: real)
    ensures d >= 3.5
  {
    match s
    case Small => 3.5
    case Medium => 4.5
    case Large => 5.5
    case XLarge => 7.0
  }

  /** `Math.min(1.3, Math.max(1, length / 12))`. */
  function TextFactor(length: nat): (f: real)
    ensures 1.0 <= f <= 1.3
    ensures length <= 12 ==> f == 1.0
  {
    var l := (length as real) / 12.0;
    var atLeastOne := if l > 1.0 then l else 1.0;
    if atLeastOne < 1.3 then atLeastOne else 1.3
  }

  /** The label length the camera reads: `text?.length || 0`, in UTF-16
      code units. */
  function CameraTextLength(text: Option<string>): nat
  {
    if text.Some? then Utf16Length(text.value) else 0
  }

  /** `Math.min(1, viewportWidth / 1200)`. */
  function ScaleFactor(viewportWidth: nat): (f: real)
    requires viewportWidth > 0
    ensures 0.0 < f <= 1.0
    ensures viewportWidth < 1200 ==> f * 1200.0 == viewportWidth as real
    ensures viewportWidth >= 1200 ==> f == 1.0
  {
    var w := (viewportWidth as real) / 1200.0;
    if w < 1.0 then w else 1.0
  }

  /** 1.5 on screens narrower than 768, else 1. */
  function ScreenMultiplier(viewportWidth: nat): (m: real)
    ensures m == 1.5 <==> viewportWidth < 768
    ensures m == 1.0 <==> viewportWidth >= 768
  {
    if viewportWidth < 768 then 1.5 else 1.0
  }

  /** The base distance pulled back by the label and the screen width,
      before the division by the scale factor. */
  function PulledBack(size: Option<Size>, text: Option<string>, viewportWidth: nat): (p: real)
    ensures p >= BaseDistance(Default(size, Medium))
    ensures p == BaseDistance(Default(size, Medium)) * TextFactor(CameraTextLength(text)) * ScreenMultiplier(viewportWidth)
    ensures viewportWidth >= 768 ==> p == BaseDistance(Default(size, Medium)) * TextFactor(CameraTextLength(text))
  {
    BaseDistance(Default(size, Medium)) * TextFactor(CameraTextLength(text)) * ScreenMultiplier(viewportWidth)
  }

  /** Camera distance from the viewport width (0 before the first
      measurement): the base distance for the category, pulled back by long
      labels and by narrow screens, and divided by the scale factor. */
  function CameraDistance(size: Option<Size>, text: Option<string>, viewportWidth: nat): (d: real)
    ensures viewportWidth == 0 ==> d == 5.0
    ensures viewportWidth > 0 ==> d >= BaseDistance(Default(size, Medium))
    ensures viewportWidth >= 1200 ==>
              d == BaseDistance(Default(size, Medium)) * TextFactor(CameraTextLength(text))
    ensures viewportWidth >= 1200 && CameraTextLength(text) <= 12 ==>
              d == BaseDistance(Default(size, Medium))
  {
    if viewportWidth == 0 then 5.0
    else
      DivideByFraction(PulledBack(size, text, viewportWidth), ScaleFactor(viewportWidth));
      PulledBack(size, text, viewportWidth) / ScaleFactor(viewportWidth)
  }

  /** Once measured, the camera distance is the pulled-back distance divided
      by the scale factor. */
  lemma CameraQuotient(size: Option<Size>, text: Option<string>, w: nat)
    requires w > 0
    ensures CameraDistance(size, text, w) == PulledBack(size, text, w) / ScaleFactor(w)
  {
  }

  /** Below 768 the screen multiplier pulls the camera back by half again
      its desktop distance. */
  lemma NarrowPulledBack(size: Option<Size>, text: Option<string>, w: nat)
    requires w < 768
    ensures PulledBack(size, text, w) == 1.5 * CameraDistance(size, text, 1200)
  {
    assert ScreenMultiplier(w) == 1.5;
  }

  /** Below 1200 the scale factor is a fraction, so dividing by it pulls the
      camera further back. */
  lemma ScaledBack(size: Option<Size>, text: Option<string>, w: nat)
    requires 0 < w < 1200
    ensures CameraDistance(size, text, w) > PulledBack(size, text, w)
  {
    CameraQuotient(size, text, w);
    var p, f := PulledBack(size, text, w), ScaleFactor(w);
    assert f < 1.0 && p >= 3.5;
    DivideByProperFraction(p, f);
  }

  /** On a narrow screen the camera stands more than 1.5 times as far back
      as on a desktop screen: the screen multiplier pulls it back by 1.5 and
      the scale factor below 1 divides it further. */
  lemma NarrowScreenPullsBack(size: Option<Size>, text: Option<string>, w: nat)
    requires 0 < w < 768
    ensures CameraDistance(size, text, w) > 1.5 * CameraDistance(size, text, 1200)
  {
    NarrowPulledBack(size, text, w);
    ScaledBack(size, text, w);
  }

  lemma TextFactorMonotone(l1: nat, l2: nat)
    requires l1 <= l2
    ensures TextFactor(l1) <= TextFactor(l2)
  {
    assert (l1 as real) / 12.0 <= (l2 as real) / 12.0;
  }

  /** A longer label never pulls the camera in less. */
  lemma PulledBackTextMonotone(size: Option<Size>, t1: string, t2: string, viewportWidth: nat)
    requires Utf16Length(t1) <= Utf16Length(t2)
    ensures PulledBack(size, Some(t1), viewportWidth) <= PulledBack(size, Some(t2), viewportWidth)
  {
    var n1, n2 := CameraTextLength(Some(t1)), CameraTextLength(Some(t2));
    TextFactorMonotone(n1, n2);
    ProductMonotone(BaseDistance(Default(size, Medium)), TextFactor(n1), TextFactor(n2),
                    ScreenMultiplier(viewportWidth));
  }

  /** Longer labels never bring the camera closer. */
  lemma CameraTextMonotone(size: Option<Size>, t1: string, t2: string, viewportWidth: nat)
    requires Utf16Length(t1) <= Utf16Length(t2)
    ensures CameraDistance(size, Some(t1), viewportWidth) <= CameraDistance(size, Some(t2), viewportWidth)
  {
    if viewportWidth > 0 {
      PulledBackTextMonotone(size, t1, t2, viewportWidth);
      DivideMonotone(PulledBack(size, Some(t1), viewportWidth), PulledBack(size, Some(t2), viewportWidth),
                     ScaleFactor(viewportWidth));
    }
  }

  /** A wider screen never pulls the camera back more. */
  lemma PulledBackWidthMonotone(size: Option<Size>, text: Option<string>, w1: nat, w2: nat)
    requires w1 <= w2
    ensures PulledBack(size, text, w2) <= PulledBack(size, text, w1)
  {
    var bt := BaseDistance(Default(size, Medium)) * TextFactor(CameraTextLength(text));
    ScaleUp(bt, ScreenMultiplier(w2), ScreenMultiplier(w1));
  }

  /** Once measured, a wider screen never pushes the camera further away. */
  lemma CameraWidthMonotone(size: Option<Size>, text: Option<string>, w1: nat, w2: nat)
    requires 0 < w1 <= w2
    ensures CameraDistance(size, text, w2) <= CameraDistance(size, text, w1)
  {
    var sf1, sf2 := ScaleFactor(w1), ScaleFactor(w2);
    var p1, p2 := PulledBack(size, text, w1), PulledBack(size, text, w2);
    assert (w1 as real) / 1200.0 <= (w2 as real) / 1200.0;
    PulledBackWidthMonotone(size, text, w1, w2);
    DivideMonotone(p2, p1, sf2);
    DivideByLarger(p1, sf1, sf2);
  }

  /** Field of view: 40 before the first measurement, 60 below 480,
      52 below 768, and 40 from there on. */
  function FieldOfView(viewportWidth: nat): (fov: real)
    ensures 40.0 <= fov <= 60.0
    ensures viewportWidth >= 768 ==> fov == 40.0
  {
    if viewportWidth == 0 then 40.0
    else if viewportWidth < 480 then 40.0 * 1.5
    else if viewportWidth < 768 then 40.0 * 1.3
    else 40.0
  }

  /** Once measured, a wider screen never widens the field of view; the
      unmeasured default 40 is the desktop value. */
  lemma FieldOfViewNarrowsWithWidth(w1: nat, w2: nat)
    requires 0 < w1 <= w2
    ensures FieldOfView(w2) <= FieldOfView(w1)
    ensures FieldOfView(0) == FieldOfView(1200)
    ensures w1 < 480 ==> FieldOfView(w1) == 60.0
    ensures 480 <= w1 < 768 ==> FieldOfView(w1) == 52.0
    ensures 768 <= w1 ==> FieldOfView(w1) == 40.0
  {
  }

  /** A CSS `clamp(min, vh, max)` height. */
  datatype Clamp = Clamp(minPx: real, viewportPercent: real, maxPx: real)

  /** The container height of each category. */
  function ContainerClamp(size: Option<Size>): Clamp
  {
    match Default(size, Medium)
    case Small => Clamp(200.0, 30.0, 300.0)
    case Medium => Clamp(250.0, 40.0, 400.0)
    case Large => Clamp(300.0, 50.0, 500.0)
    case XLarge => Clamp(350.0, 60.0, 600.0)
  }

  /** The height the browser gives `clamp(...)` for a viewport height. */
  function ClampedHeight(c: Clamp, viewportHeight: real): (h: real)
    requires c.minPx <= c.maxPx
    ensures c.minPx <= h <= c.maxPx
    ensures c.minPx <= c.viewportPercent * viewportHeight / 100.0 <= c.maxPx ==>
              h == c.viewportPercent * viewportHeight / 100.0
    ensures c.viewportPercent * viewportHeight / 100.0 < c.minPx ==> h == c.minPx
    ensures c.viewportPercent * viewportHeight / 100.0 > c.maxPx ==> h == c.maxPx
  {
    var preferred := c.viewportPercent * viewportHeight / 100.0;
    var capped := if preferred < c.maxPx then preferred else c.maxPx;
    if capped > c.minPx then capped else c.minPx
  }

  /** A larger category never gets a shorter container, on any viewport. */
  lemma ContainerOrdered(a: Size, b: Size, viewportHeight: real)
    requires Rank(a) <= Rank(b) && viewportHeight >= 0.0
    ensures ClampedHeight(ContainerClamp(Some(a)), viewportHeight)
              <= ClampedHeight(ContainerClamp(Some(b)), viewportHeight)
  {
    var ca, cb := ContainerClamp(Some(a)), ContainerClamp(Some(b));
    assert ca.viewportPercent * viewportHeight <= cb.viewportPercent * viewportHeight;
  }

  /** The staging offset: further back (-1) below 768, else -0.3. */
  function StageZ(viewportWidth: nat): (z: real)
    ensures z == -1.0 <==> viewportWidth < 768
    ensures z == -0.3 <==> viewportWidth >= 768
  {
    if viewportWidth < 768 then -1.0 else -0.3
  }

  /** The stage steps back exactly on the screens where the camera is
      pulled back by the screen multiplier and the field of view is widened,
      and a wider screen never moves it further back. */
  lemma StageFollowsScreen(w1: nat, w2: nat)
    requires w1 <= w2
    ensures StageZ(w1) <= StageZ(w2)
    ensures StageZ(w1) == -1.0 <==> ScreenMultiplier(w1) == 1.5
    ensures w1 > 0 ==> (StageZ(w1) == -1.0 <==> FieldOfView(w1) > 40.0)
  {
  }

  /** The contact shadow: `shadowColor || '#000000'`, `shadowOpacity || 0.7`. */
  function ButtonShadow(color: Option<string>, opacity: Option<real>): (s: ShadowSpec)
    ensures s.opacity != 0.0
    ensures opacity.None? ==> s == ShadowSpec(TextOr(color, "#000000"), 0.7)
  {
    StageShadow(color, opacity, 0.7)
  }

  /** The camera settings before the first measurement, as one lemma over
      the calibration functions. */
  lemma UnmeasuredDefaults(size: Option<Size>, text: Option<string>)
    ensures CameraDistance(size, text, 0) == 5.0
    ensures FieldOfView(0) == 40.0
    ensures StageZ(0) == -1.0
  {
  }

  datatype Gradient = Gradient(from: string, to: string, angle: Option<real>)

  /** The 256x256 canvas texture painted with the gradient. The direction of
      the gradient axis is in turns (`angle || 0` degrees over 360). */
  datatype GradientTexture = GradientTexture(size: nat, from: string, to: string, turns: real, needsUpdate: bool)

  /** The material of the box: white under a gradient texture so that the
      texture shows its own colours, otherwise the button colour; transparent
      exactly when opacity is not 1. */
  datatype Surface = Surface(color: string, texture: Option<GradientTexture>, opacity: real, transparent: bool)

  /** The gradient texture; none without a gradient or without a 2D context. */
  function Texture(g: Option<Gradient>, hasContext: bool): (t: Option<GradientTexture>)
    ensures t.Some? <==> g.Some? && hasContext
    ensures t.Some? ==> g.Some? && t.value.from == g.value.from && t.value.to == g.value.to
                        && t.value.size == 256 && t.value.needsUpdate
  {
    match g
    case None => None
    case Some(gr) =>
      if !hasContext then None
      else Some(GradientTexture(256, gr.from, gr.to, NumberOr(gr.angle, 0.0) / 360.0, true))
  }

  function ButtonSurface(color: string, g: Option<Gradient>, hasContext: bool, opacity: real): Surface
  {
    Surface(if g.Some? then "#ffffff" else color, Texture(g, hasContext), opacity, opacity != 1.0)
  }

  /** Without a gradient the box is the flat button colour with no texture;
      with one, it is white and textured (when a 2D context exists); it is
      transparent exactly when opacity is not 1. */
  lemma SurfaceCases(color: string, g: Option<Gradient>, hasContext: bool, opacity: real)
    ensures g.None? ==> ButtonSurface(color, g, hasContext, opacity).color == color
                        && ButtonSurface(color, g, hasContext, opacity).texture.None?
    ensures g.Some? ==> ButtonSurface(color, g, hasContext, opacity).color == "#ffffff"
                        && (ButtonSurface(color, g, hasContext, opacity).texture.Some? <==> hasContext)
    ensures ButtonSurface(color, g, hasContext, opacity).transparent <==> opacity != 1.0
  {
  }

  /** The label sits 0.01 in front of the box's front face. */
  function LabelZ(depth: real): (z: real)
    ensures z > depth / 2.0
  {
    depth / 2.0 + 0.01
  }
}

=== FILE: framed_image.dfy ===
/** The image of the component package: a picture on a plane, optionally
    set in a box frame of one of four material styles, optionally wobbling,
    and the canvas size derived from the container. */
module FramedImage {
  import opened Props

  datatype FrameStyle = Metal | Glass | Matte | Glossy | OtherStyle(name: string)

  /** The physical-material settings spread onto the frame; a setting the
      style does not name is `None` (left at the renderer's default). */
  datatype FrameMaterial = FrameMaterial(
    metalness: real,
    roughness: real,
    clearcoat: Option<real>,
    transmission: Option<real>,
    thickness: Option<real>,
    clearcoatRoughness: Option<real>)

  function FrameMaterialFor(style: FrameStyle): FrameMaterial
  {
    match style
    case Metal => FrameMaterial(0.9, 0.2, Some(0.5), None, None, None)
    case Glass => FrameMaterial(0.1, 0.1, Some(1.0), Some(0.9), Some(0.5), None)
    case Matte => FrameMaterial(0.1, 0.8, Some(0.0), None, None, None)
    case Glossy => FrameMaterial(0.3, 0.2, Some(1.0), None, None, Some(0.1))
    case OtherStyle(_) => FrameMaterial(0.7, 0.2, None, None, None, None)
  }

  /** Only the glass frame lets light through (and has a thickness); every
      named style sets a clearcoat, an unknown one falls back to a plain
      0.7/0.2 metal without one; the absent prop means `metal`. */
  lemma FrameMaterialTable(style: FrameStyle)
    ensures FrameMaterialFor(style).transmission.Some? <==> style == Glass
    ensures FrameMaterialFor(style).thickness.Some? <==> style == Glass
    ensures FrameMaterialFor(style).clearcoatRoughness.Some? <==> style == Glossy
    ensures FrameMaterialFor(style).clearcoat.Some? <==> !style.OtherStyle?
    ensures 0.0 <= FrameMaterialFor(style).metalness <= 1.0
    ensures 0.0 <= FrameMaterialFor(style).roughness <= 1.0
    ensures FrameMaterialFor(Default(None, Metal)).metalness == 0.9
    ensures style.OtherStyle? ==> FrameMaterialFor(style) == FrameMaterial(0.7, 0.2, None, None, None, None)
  {
  }

  /** A box mesh: its size and the z of its centre. */
  datatype Box = Box(width: real, height: real, depth: real, z: real)

  /** The frame box, present only for a framed image: `frameWidth` wider on
      every side than the image, slightly deeper than `depth`, centred half a
      depth behind the image plane. */
  function FrameBox(frame: bool, width: real, height: real, depth: real, frameWidth: real): (b: Option<Box>)
    ensures b.Some? <==> frame
    ensures b.Some? ==> b.value.width - width == 2.0 * frameWidth
                        && b.value.height - height == 2.0 * frameWidth
                        && b.value.depth == depth + 0.01
  {
    if frame then Some(Box(width + frameWidth * 2.0, height + frameWidth * 2.0, depth + 0.01, -depth / 2.0))
    else None
  }

  /** The z of the group holding the picture. */
  function ImageGroupZ(frame: bool, depth: real): real
  {
    if frame then 0.01 else depth
  }

  /** A framed picture is drawn in front of its frame's front face, whatever
      the depth; a positive frame width leaves a visible border on each side. */
  lemma PictureInFrontOfFrame(width: real, height: real, depth: real, frameWidth: real)
    ensures var b := FrameBox(true, width, height, depth, frameWidth).value;
            ImageGroupZ(true, depth) > b.z + b.depth / 2.0
    ensures frameWidth > 0.0 ==> FrameBox(true, width, height, depth, frameWidth).value.width > width
    ensures FrameBox(false, width, height, depth, frameWidth).None?
    ensures ImageGroupZ(false, depth) == depth
  {
  }

  datatype PictureMaterial = WobbleMaterial | BasicMaterial

  /** The wobbling material is used only for an unframed image. */
  function PictureMaterialFor(frame: bool, wobble: bool): (m: PictureMaterial)
    ensures m == WobbleMaterial <==> wobble && !frame
  {
    if !frame && wobble then WobbleMaterial else BasicMaterial
  }

  datatype Canvas = Canvas(width: real, height: real)

  /** The canvas for a container width: as wide as the container, as tall as
      the image's aspect ratio requires. */
  function CanvasDimensions(containerWidth: real, width: real, height: real): (c: Canvas)
    requires width > 0.0 && height > 0.0
    ensures c.width == containerWidth
    ensures c.height * width == containerWidth * height
    ensures containerWidth == 0.0 ==> c.height == 0.0
    ensures containerWidth > 0.0 ==> c.height > 0.0
  {
    var aspectRatio := width / height;
    Canvas(containerWidth, containerWidth / aspectRatio)
  }

  /** A wider container gives a taller canvas. */
  lemma CanvasGrowsWithContainer(w1: real, w2: real, width: real, height: real)
    requires width > 0.0 && height > 0.0 && w1 <= w2
    ensures CanvasDimensions(w1, width, height).height <= CanvasDimensions(w2, width, height).height
  {
    var h1, h2 := CanvasDimensions(w1, width, height).height, CanvasDimensions(w2, width, height).height;
    assert h1 * width <= h2 * width;
  }
}

=== FILE: own_model.dfy ===
/** The model viewer of the site: a loaded scene graph whose meshes get the
    requested metalness and roughness, animated frame by frame, seen by a
    camera that optional orbit controls can move. Angles are in radians,
    as the renderer takes them; the sine of the bounce is a parameter. */
module OwnModel {
  import opened Props

  datatype Vec3 = Vec3(x: real, y: real, z: real)

  /** The transform of the model group that the frame handler writes. */
  datatype Transform = Transform(rotation: Vec3, position: Vec3)

  datatype ModelAnimation = Float | SpinHorizontal | SpinVertical | Bounce | NoAnimation

  /** One rendered frame: the seconds since the previous frame, and the sine
      of (elapsed seconds * animation speed), which the bounce reads. */
  datatype Tick = Tick(delta: real, wave: real)

  predicate ValidTicks(ticks: seq<Tick>)
  {
    forall k :: 0 <= k < |ticks| ==> -1.0 <= ticks[k].wave <= 1.0
  }

  /** The frame handler: nothing happens before the model is mounted; the
      spins add `delta * speed` to one rotation axis, the bounce sets the
      height to a tenth of the wave, every other animation leaves the
      transform alone. */
  function FrameStep(animation: ModelAnimation, mounted: bool, t: Transform, tick: Tick, speed: real): (r: Transform)
    requires -1.0 <= tick.wave <= 1.0
    ensures !mounted ==> r == t
    ensures r.rotation.z == t.rotation.z && r.position.x == t.position.x && r.position.z == t.position.z
    ensures animation == Bounce && mounted ==> -0.1 <= r.position.y <= 0.1
    ensures animation != Bounce ==> r.position == t.position
    ensures animation !in {SpinHorizontal, SpinVertical} ==> r.rotation == t.rotation
  {
    if !mounted then t
    else
      match animation
      case SpinHorizontal => t.(rotation := t.rotation.(y := t.rotation.y + tick.delta * speed))
      case SpinVertical => t.(rotation := t.rotation.(x := t.rotation.x + tick.delta * speed))
      case Bounce => t.(position := t.position.(y := tick.wave * 0.1))
      case _ => t
  }

  /** The transform after a run of frames. */
  function RunFrames(animation: ModelAnimation, mounted: bool, t: Transform, ticks: seq<Tick>, speed: real): Transform
    requires ValidTicks(ticks)
    decreases |ticks|
  {
    if ticks == [] then t
    else
      var last := ticks[|ticks| - 1];
      FrameStep(animation, mounted, RunFrames(animation, mounted, t, ticks[..|ticks| - 1], speed), last, speed)
  }

  /** The total time a run of frames covers. */
  function Elapsed(ticks: seq<Tick>): real
    decreases |ticks|
  {
    if ticks == [] then 0.0 else Elapsed(ticks[..|ticks| - 1]) + ticks[|ticks| - 1].delta
  }

  /** A horizontal spin turns the model about its vertical axis by speed
      times the elapsed time, however the time is cut into frames, and
      moves nothing else. */
  lemma {:induction false} SpinHorizontalRun(t: Transform, ticks: seq<Tick>, speed: real)
    requires ValidTicks(ticks)
    ensures var r := RunFrames(SpinHorizontal, true, t, ticks, speed);
            && r.rotation.y == t.rotation.y + speed * Elapsed(ticks)
            && r.rotation.x == t.rotation.x && r.rotation.z == t.rotation.z
            && r.position == t.position
    decreases |ticks|
  {
    if ticks != [] {
      var prefix := ticks[..|ticks| - 1];
      assert ValidTicks(prefix) by {
        forall k | 0 <= k < |prefix| ensures -1.0 <= prefix[k].wave <= 1.0 {
          assert prefix[k] == ticks[k];
        }
      }
      SpinHorizontalRun(t, prefix, speed);
    }
  }

  /** A vertical spin turns the model about its horizontal axis likewise. */
  lemma {:induction false} SpinVerticalRun(t: Transform, ticks: seq<Tick>, speed: real)
    requires ValidTicks(ticks)
    ensures var r := RunFrames(SpinVertical, true, t, ticks, speed);
            && r.rotation.x == t.rotation.x + speed * Elapsed(ticks)
            && r.rotation.y == t.rotation.y && r.rotation.z == t.rotation.z
            && r.position == t.position
    decreases |ticks|
  {
    if ticks != [] {
      var prefix := ticks[..|ticks| - 1];
      assert ValidTicks(prefix) by {
        forall k | 0 <= k < |prefix| ensures -1.0 <= prefix[k].wave <= 1.0 {
          assert prefix[k] == ticks[k];
        }
      }
      SpinVerticalRun(t, prefix, speed);
    }
  }

  /** The bounce does not accumulate: after any non-empty run the height is
      a tenth of the last frame's wave, within 0.1 of the ground, whatever
      the starting position. */
  lemma BounceRun(t: Transform, ticks: seq<Tick>, speed: real)
    requires ValidTicks(ticks) && ticks != []
    ensures RunFrames(Bounce, true, t, ticks, speed).position.y == ticks[|ticks| - 1].wave * 0.1
    ensures -0.1 <= RunFrames(Bounce, true, t, ticks, speed).position.y <= 0.1
  {
  }

  /** Unmounted, or with the floating (wrapper-driven) or no animation, the
      frame handler never changes the transform. */
  lemma {:induction false} StillRun(animation: ModelAnimation, mounted: bool, t: Transform, ticks: seq<Tick>, speed: real)
    requires ValidTicks(ticks)
    requires !mounted || animation == Float || animation == NoAnimation
    ensures RunFrames(animation, mounted, t, ticks, speed) == t
    decreases |ticks|
  {
    if ticks != [] {
      var prefix := ticks[..|ticks| - 1];
      assert ValidTicks(prefix) by {
        forall k | 0 <= k < |prefix| ensures -1.0 <= prefix[k].wave <= 1.0 {
          assert prefix[k] == ticks[k];
        }
      }
      StillRun(animation, mounted, t, prefix, speed);
    }
  }

  /** The floating wrapper is used exactly for the `float` animation, which
      is also the default. */
  function Floats(animation: Option<ModelAnimation>): (f: bool)
    ensures f <==> animation.None? || animation == Some(Float)
  {
    Default(animation, Float) == Float
  }

  /** A physical material; only the colour is kept from the loaded file. */
  datatype Material = Material(color: string, metalness: real, roughness: real)

  /** A node of the loaded scene graph. */
  datatype Node = Node(isMesh: bool, material: Option<Material>, castShadow: bool,
                       receiveShadow: bool, children: seq<Node>)

  /** Whether the material pass touches the node itself. */
  predicate Touched(n: Node)
  {
    n.isMesh && n.material.Some?
  }

  /** The material pass over the cloned scene, root included: every mesh
      with a material gets the requested metalness and roughness and casts
      and receives shadows. */
  function Override(n: Node, metalness: real, roughness: real): (o: Node)
    decreases n
  {
    var kids := seq(|n.children|, i requires 0 <= i < |n.children| => Override(n.children[i], metalness, roughness));
    if Touched(n) then
      Node(n.isMesh, Some(n.material.value.(metalness := metalness, roughness := roughness)), true, true, kids)
    else
      n.(children := kids)
  }

  /** Every touched node of the tree carries the settings. */
  predicate Tuned(n: Node, metalness: real, roughness: real)
    decreases n
  {
    && (Touched(n) ==> n.material.value.metalness == metalness && n.material.value.roughness == roughness
                       && n.castShadow && n.receiveShadow)
    && forall i :: 0 <= i < |n.children| ==> Tuned(n.children[i], metalness, roughness)
  }

  /** The two trees have the same shape, the same node kinds and colours,
      and agree entirely on the nodes the pass does not touch. */
  predicate SameScene(a: Node, b: Node)
    decreases a
  {
    && a.isMesh == b.isMesh
    && a.material.Some? == b.material.Some?
    && (a.material.Some? ==> a.material.value.color == b.material.value.color)
    && (!Touched(a) ==> a.material == b.material && a.castShadow == b.castShadow && a.receiveShadow == b.receiveShadow)
    && |a.children| == |b.children|
    && forall i :: 0 <= i < |a.children| ==> SameScene(a.children[i], b.children[i])
  }

  /** The pass reaches every mesh, keeps every colour and the tree's shape,
      and leaves every other node as it was. */
  lemma {:induction false} OverrideSpec(n: Node, metalness: real, roughness: real)
    ensures Tuned(Override(n, metalness, roughness), metalness, roughness)
    ensures SameScene(n, Override(n, metalness, roughness))
    decreases n
  {
    var o := Override(n, metalness, roughness);
    forall i | 0 <= i < |n.children|
      ensures Tuned(o.children[i], metalness, roughness) && SameScene(n.children[i], o.children[i])
    {
      OverrideSpec(n.children[i], metalness, roughness);
    }
  }

  /** A tree already carrying the settings is left exactly as it is. */
  lemma {:induction false} TunedIsFixed(n: Node, metalness: real, roughness: real)
    requires Tuned(n, metalness, roughness)
    ensures Override(n, metalness, roughness) == n
    decreases n
  {
    var o := Override(n, metalness, roughness);
    forall i | 0 <= i < |n.children| ensures o.children[i] == n.children[i] {
      TunedIsFixed(n.children[i], metalness, roughness);
    }
    assert o.children == n.children;
  }

  /** Applying the pass twice changes nothing more. */
  lemma OverrideIdempotent(n: Node, metalness: real, roughness: real)
    ensures Override(Override(n, metalness, roughness), metalness, roughness) == Override(n, metalness, roughness)
  {
    OverrideSpec(n, metalness, roughness);
    TunedIsFixed(Override(n, metalness, roughness), metalness, roughness);
  }

  /** Only the latest settings matter: passing over an already tuned tree
      gives the tree tuned once with the new settings. */
  lemma {:induction false} OverrideLastWins(n: Node, m1: real, r1: real, m2: real, r2: real)
    ensures Override(Override(n, m1, r1), m2, r2) == Override(n, m2, r2)
    decreases n
  {
    var a, b := Override(Override(n, m1, r1), m2, r2), Override(n, m2, r2);
    forall i | 0 <= i < |n.children| ensures a.children[i] == b.children[i] {
      OverrideLastWins(n.children[i], m1, r1, m2, r2);
    }
    assert a.children == b.children;
  }

  /** The orbit-control settings; a setting left out is `None` (the
      control's own default). Polar angles are in radians. */
  datatype OrbitOptions = OrbitOptions(
    enableZoom: Option<bool>,
    enableRotate: Option<bool>,
    enablePan: Option<bool>,
    minDistance: Option<real>,
    maxDistance: Option<real>,
    minPolarAngle: Option<real>,
    maxPolarAngle: Option<real>)

  /** The default settings, with pi given as a parameter: rotate only,
      between 2 and 20 units, over the full polar range. */
  function DefaultOrbit(pi: real): OrbitOptions
  {
    OrbitOptions(Some(false), Some(true), Some(false), Some(2.0), Some(20.0), Some(0.0), Some(pi))
  }

  /** The orbit controls rendered, if any: only when enabled (off by
      default), with the given settings object replacing the default one
      whole, not merged into it. */
  function OrbitControls(enable: Option<bool>, options: Option<OrbitOptions>, pi: real): (c: Option<OrbitOptions>)
    ensures c.Some? <==> enable == Some(true)
    ensures c.Some? && options.Some? ==> c.value == options.value
    ensures c.Some? && options.None? ==> c.value == DefaultOrbit(pi)
  {
    if Default(enable, false) then Some(Default(options, DefaultOrbit(pi))) else None
  }

  /** The camera the canvas opens with. */
  datatype Camera = Camera(z: real, fov: real, near: real, far: real)

  function ModelCamera(distance: Option<real>): (c: Camera)
    ensures distance.None? ==> c.z == 7.0
    ensures distance.Some? ==> c.z == distance.value
    ensures c.near < c.far && c.fov == 50.0
  {
    Camera(Default(distance, 7.0), 50.0, 0.1, 1000.0)
  }

  /** With no props the camera stands at 7, inside the default orbit's
      2..20 distance range; settings that name only some fields leave the
      distance range unset rather than falling back to 2..20. */
  lemma OrbitDefaults(pi: real, zoom: bool)
    ensures var c := OrbitControls(Some(true), None, pi).value;
            c.minDistance.value <= ModelCamera(None).z <= c.maxDistance.value
    ensures OrbitControls(None, None, pi).None?
    ensures var partial := OrbitOptions(Some(zoom), None, None, None, None, None, None);
            OrbitControls(Some(true), Some(partial), pi).value.minDistance.None?
  {
  }

  /** The contact shadow: `shadowColor || '#000000'`, `shadowOpacity || 0.5`. */
  function ModelShadow(color: Option<string>, opacity: Option<real>): (s: ShadowSpec)
    ensures (opacity.None? || opacity.value == 0.0) ==> s.opacity == 0.5
    ensures opacity.Some? && opacity.value != 0.0 ==> s.opacity == opacity.value
    ensures (color.None? || color.value == "") ==> s.color == "#000000"
  {
    StageShadow(color, opacity, 0.5)
  }

  /** The material settings of the inner scene: metalness 0.5 and roughness
      0.2 unless given. With no props the model floats, its frame handler
      never moves it, and every mesh carries those defaults. */
  lemma SceneDefaults(root: Node, t: Transform, ticks: seq<Tick>, mounted: bool)
    requires ValidTicks(ticks)
    ensures Floats(None)
    ensures RunFrames(Default(None, Float), mounted, t, ticks, Default(None, 1.0)) == t
    ensures Tuned(Override(root, Default(None, 0.5), Default(None, 0.2)), 0.5, 0.2)
  {
    StillRun(Float, mounted, t, ticks, 1.0);
    OverrideSpec(root, 0.5, 0.2);
  }
}

=== FILE: pressable_button.dfy ===
/** The pressable button of the site: a rounded box that grows while hovered
    and sinks while pressed. Two flags, `hovered` and `pressed`, are driven by
    the pointer events and frozen by `disabled`; the spring targets and the
    glass/solid material are derived from them and the props. */
module PressableButton {

  datatype Size = Small | Medium | Large

  datatype Dimensions = Dimensions(width: real, height: real, fontSize: real)

  /** The box and label size of each category. */
  function SizeDimensions(s: Size): (d: Dimensions)
    ensures s == Small ==> d == Dimensions(1.5, 0.5, 0.15)
    ensures s == Medium ==> d == Dimensions(2.0, 0.7, 0.2)
    ensures s == Large ==> d == Dimensions(2.5, 0.9, 0.25)
  {
    match s
    case Small => Dimensions(1.5, 0.5, 0.15)
    case Medium => Dimensions(2.0, 0.7, 0.2)
    case Large => Dimensions(2.5, 0.9, 0.25)
  }

  /** The corner radius of the rounded box, the same for every size. */
  const CornerRadius: real := 0.15

  /** Every category keeps the same proportions: the label is a tenth of the
      width, the box is wider than tall, and the fixed corner radius fits
      within half the height. */
  lemma SizeProportions(s: Size)
    ensures SizeDimensions(s).fontSize * 10.0 == SizeDimensions(s).width
    ensures SizeDimensions(s).height < SizeDimensions(s).width
    ensures CornerRadius < SizeDimensions(s).height / 2.0
  {
  }

  datatype Flags = Flags(hovered: bool, pressed: bool)

  const Rest: Flags := Flags(false, false)

  datatype Event = PointerDown | PointerUp | PointerOver | PointerOut | Click

  /** The new flags after one event. */
  function Next(disabled: bool, f: Flags, e: Event): Flags
  {
    if disabled then f
    else
      match e
      case PointerDown => f.(pressed := true)
      case PointerUp => f.(pressed := false)
      case PointerOver => f.(hovered := true)
      case PointerOut => Flags(false, false)
      case Click => f
  }

  /** Whether the event calls the `onClick` prop (when one is given). */
  function CallsOnClick(disabled: bool, e: Event): bool
  {
    e == Click && !disabled
  }

  /** Each event while enabled changes exactly the flag it names. */
  lemma EnabledTransitions(f: Flags)
    ensures Next(false, f, PointerDown) == Flags(f.hovered, true)
    ensures Next(false, f, PointerUp) == Flags(f.hovered, false)
    ensures Next(false, f, PointerOver) == Flags(true, f.pressed)
    ensures Next(false, f, PointerOut) == Rest
    ensures Next(false, f, Click) == f
    ensures CallsOnClick(false, Click)
  {
  }

  /** The flags after a sequence of events. */
  function RunFlags(disabled: bool, f: Flags, events: seq<Event>): Flags
    decreases |events|
  {
    if events == [] then f else RunFlags(disabled, Next(disabled, f, events[0]), events[1..])
  }

  /** How many times the sequence calls `onClick`. */
  function ClickCalls(disabled: bool, events: seq<Event>): nat
    decreases |events|
  {
    if events == [] then 0
    else (if CallsOnClick(disabled, events[0]) then 1 else 0) + ClickCalls(disabled, events[1..])
  }

  /** While disabled no sequence of events changes a flag or calls
      `onClick`. */
  lemma {:induction false} DisabledFrozen(f: Flags, events: seq<Event>)
    ensures RunFlags(true, f, events) == f
    ensures ClickCalls(true, events) == 0
    decreases |events|
  {
    if events != [] {
      DisabledFrozen(f, events[1..]);
    }
  }

  /** While enabled, `onClick` is called once per click. */
  lemma {:induction false} EnabledClickCount(events: seq<Event>)
    ensures ClickCalls(false, events) == multiset(events)[Click]
    decreases |events|
  {
    if events != [] {
      EnabledClickCount(events[1..]);
      assert events == [events[0]] + events[1..];
      assert multiset(events) == multiset{events[0]} + multiset(events[1..]);
    }
  }

  /** The pointer leaving always ends a press: after `PointerOut` the button
      is neither hovered nor pressed, whatever came before. */
  lemma {:induction false} OutResets(f: Flags, events: seq<Event>)
    requires events != [] && events[|events| - 1] == PointerOut
    ensures RunFlags(false, f, events) == Rest
    decreases |events|
  {
    if |events| > 1 {
      OutResets(Next(false, f, events[0]), events[1..]);
    }
  }

  /** The spring targets: scale 1.1 while hovered (when the `hover` prop
      allows it), and 0.15 lower while pressed. */
  datatype Targets = Targets(scale: real, y: real)

  function SpringTargets(hoverProp: bool, f: Flags): (t: Targets)
    ensures t.scale == 1.1 <==> hoverProp && f.hovered
    ensures t.scale == 1.0 <==> !(hoverProp && f.hovered)
    ensures t.y == -0.15 <==> f.pressed
    ensures t.y == 0.0 <==> !f.pressed
  {
    Targets(if hoverProp && f.hovered then 1.1 else 1.0, if f.pressed then -0.15 else 0.0)
  }

  /** A disabled button stays at its resting targets whatever the events. */
  lemma DisabledTargets(hoverProp: bool, events: seq<Event>)
    ensures SpringTargets(hoverProp, RunFlags(true, Rest, events)) == Targets(1.0, 0.0)
  {
    DisabledFrozen(Rest, events);
  }

  datatype Variant = Solid | Glass

  datatype Material = Material(transmission: real, thickness: real, roughness: real,
                               metalness: real, opacity: real, depthWrite: bool)

  /** The physical material of the box. */
  function ButtonMaterial(v: Variant, opacity: real): Material
  {
    if v == Glass then Material(0.6, 0.8, 0.1, 0.7, opacity * 0.8, opacity == 1.0)
    else Material(0.0, 0.0, 0.2, 0.6, opacity, opacity == 1.0)
  }

  /** Glass lets light through and fades to 80 % of the opacity; solid is
      opaque to light and keeps the opacity. Depth is written exactly for a
      fully opaque prop, so a glass button at opacity 1 still writes depth
      although it is drawn at 0.8. */
  lemma MaterialVariants(opacity: real)
    ensures ButtonMaterial(Glass, opacity).transmission > 0.0
    ensures ButtonMaterial(Solid, opacity).transmission == 0.0
    ensures ButtonMaterial(Glass, opacity).opacity == 0.8 * opacity
    ensures ButtonMaterial(Solid, opacity).opacity == opacity
    ensures forall v: Variant :: ButtonMaterial(v, opacity).depthWrite <==> opacity == 1.0
    ensures 0.0 <= opacity ==> ButtonMaterial(Glass, opacity).opacity <= ButtonMaterial(Solid, opacity).opacity
  {
  }

  /** The shadow plane under the box: half a unit wider than the box and a
      unit deeper than it. */
  function ShadowPlane(s: Size, depth: real): (plane: (real, real))
    ensures plane.0 > SizeDimensions(s).width && plane.1 > depth
  {
    (SizeDimensions(s).width + 0.5, depth + 1.0)
  }

  /** Where the label is drawn and how large. */
  datatype Label = Label(z: real, fontSize: real)

  /** The label sits 0.01 in front of the box's front face, at the font
      size of the category, which is a tenth of the box width. */
  function LabelFor(s: Size, depth: real): (l: Label)
    ensures l.z > depth / 2.0
    ensures l.fontSize * 10.0 == SizeDimensions(s).width
  {
    Label(depth / 2.0 + 0.01, SizeDimensions(s).fontSize)
  }
}

=== FILE: props.dfy ===
/** Optional component props and the two ways the components fill in a
    missing one: a destructuring default (`x = d`, used only when the prop is
    absent) and a JavaScript `||` fallback (used when the prop is absent OR
    falsy: `0` for numbers, the empty string for strings). */
module Props {

  datatype Option<+T> = None | Some(value: T)

  /** Destructuring default: `{ x = d }`. */
  function Default<T>(x: Option<T>, d: T): (r: T)
    ensures x.Some? ==> r == x.value
    ensures x.None? ==> r == d
  {
    match x
    case Some(v) => v
    case None => d
  }

  /** `x || d` for a number prop: absent and zero both give the fallback. */
  function NumberOr(x: Option<real>, d: real): (r: real)
    ensures (x.None? || x.value == 0.0) ==> r == d
    ensures (x.Some? && x.value != 0.0) ==> r == x.value
  {
    if x.Some? && x.value != 0.0 then x.value else d
  }

  /** `x || d` for a string prop: absent and empty both give the fallback. */
  function TextOr(x: Option<string>, d: string): (r: string)
    ensures (x.None? || x.value == "") ==> r == d
    ensures (x.Some? && x.value != "") ==> r == x.value
  {
    if x.Some? && x.value != "" then x.value else d
  }

  /** Shadow settings handed to the staging helper of a scene. */
  datatype ShadowSpec = ShadowSpec(color: string, opacity: real)

  /** The `color: shadowColor || '#000000', opacity: shadowOpacity || d` pair
      that every staged component builds, with its own opacity fallback `d`. */
  function StageShadow(color: Option<string>, opacity: Option<real>, d: real): (s: ShadowSpec)
    ensures s.color != ""
    ensures s.opacity != 0.0 || d == 0.0
    ensures (opacity.None? || opacity.value == 0.0) ==> s.opacity == d
    ensures (color.None? || color.value == "") ==> s.color == "#000000"
    ensures opacity.Some? && opacity.value != 0.0 ==> s.opacity == opacity.value
    ensures color.Some? && color.value != "" ==> s.color == color.value
  {
    ShadowSpec(TextOr(color, "#000000"), NumberOr(opacity, d))
  }

  /** The `animation` prop of the text and of both images. */
  datatype DisplayAnimation = FloatAnimation | SpinAnimation | NoDisplayAnimation

  /** Whether the content is wrapped in the floating helper: only for
      `'float'`, which is also the default; any other value renders the
      content as it is. */
  function Floating(animation: Option<DisplayAnimation>): (r: bool)
    ensures r <==> animation.None? || animation.value == FloatAnimation
  {
    Default(animation, FloatAnimation) == FloatAnimation
  }

  /** `'spin'` has no rendering of its own: it draws exactly as `'none'`. */
  lemma SpinRendersStill()
    ensures Floating(Some(SpinAnimation)) == Floating(Some(NoDisplayAnimation))
    ensures !Floating(Some(SpinAnimation)) && Floating(None)
  {
  }
}

=== FILE: real_facts.dfy ===
/** Facts about real division and `Floor` that the layout formulas need;
    each is a step the solver does not take unaided. */
module RealFacts {

  /** `Math.floor(x / d) * d <= x < (Math.floor(x / d) + 1) * d` for `d > 0`. */
  lemma FloorBounds(x: real, d: real)
    requires d > 0.0
    ensures ((x / d).Floor as real) * d <= x
    ensures (((x / d).Floor + 1) as real) * d > x
  {
    FloorAbove(x, d);
    var q := x / d;
    var f := q.Floor as real;
    assert q * d == x;
    assert f * d <= q * d;
  }

  /** The upper half of `FloorBounds`. */
  lemma FloorAbove(x: real, d: real)
    requires d > 0.0
    ensures (((x / d).Floor + 1) as real) * d > x
  {
    var q := x / d;
    var m := (q.Floor + 1) as real;
    assert q < m;
    assert q * d == x;
    assert q * d < m * d;
  }

  /** A non-negative number over a positive one is non-negative. */
  lemma NonNegativeQuotient(x: real, f: real)
    requires x >= 0.0 && f > 0.0
    ensures x / f >= 0.0
  {
    var q := x / f;
    assert q * f == x;
  }

  /** Dividing by a fraction in (0, 1] never shrinks a non-negative number. */
  lemma DivideByFraction(x: real, f: real)
    requires x >= 0.0 && 0.0 < f <= 1.0
    ensures x / f >= x
    ensures (x / f) * f == x
  {
    var q := x / f;
    NonNegativeQuotient(x, f);
    assert q * f == x;
    assert q * f <= q * 1.0;
  }

  /** Dividing by a positive number keeps the order. */
  lemma DivideMonotone(a: real, b: real, f: real)
    requires a <= b && f > 0.0
    ensures a / f <= b / f
  {
    var d := b / f - a / f;
    assert d * f == b - a;
    NonNegativeQuotient(b - a, f);
    assert d == (b - a) / f;
  }

  /** A larger positive divisor never gives a larger quotient. */
  lemma DivideByLarger(x: real, f1: real, f2: real)
    requires x >= 0.0 && 0.0 < f1 <= f2
    ensures x / f2 <= x / f1
  {
    var q1, q2 := x / f1, x / f2;
    assert q1 * f1 == x && q2 * f2 == x;
    NonNegativeQuotient(x, f2);
    assert q2 * f1 <= q2 * f2;
    assert (q1 - q2) * f1 >= 0.0;
    NonNegativeQuotient((q1 - q2) * f1, f1);
    assert (q1 - q2) * f1 / f1 == q1 - q2;
  }

  /** Multiplying by a non-negative number keeps the order. */
  lemma ScaleUp(k: real, a: real, b: real)
    requires k >= 0.0 && a <= b
    ensures k * a <= k * b
  {
  }

  /** Multiplying on the right by a non-negative number keeps the order. */
  lemma ScaleUpRight(k: real, a: real, b: real)
    requires k >= 0.0 && a <= b
    ensures a * k <= b * k
  {
  }

  /** A larger middle factor gives a larger product of non-negative factors. */
  lemma ProductMonotone(a: real, f1: real, f2: real, k: real)
    requires a >= 0.0 && k >= 0.0 && f1 <= f2
    ensures a * f1 * k <= a * f2 * k
  {
    ScaleUp(a, f1, f2);
    ScaleUpRight(k, a * f1, a * f2);
  }

  /** A positive value that a fraction below 1 scales down to `x` exceeds `x`. */
  lemma NarrowDivision(d: real, f: real, x: real)
    requires 0.0 < f < 1.0 && x > 0.0 && d * f == x
    ensures d > x
  {
    var g := 1.0 - f;
    assert d * f + d * g == d;
    assert d > 0.0;
    assert d * g > 0.0;
    assert d == x + d * g;
  }

  /** Dividing a positive number by a fraction below 1 makes it larger. */
  lemma DivideByProperFraction(x: real, f: real)
    requires x > 0.0 && 0.0 < f < 1.0
    ensures x / f > x
  {
    var q := x / f;
    assert q * f == x;
    NarrowDivision(q, f, x);
  }
}

=== FILE: text_layout.dfy ===
/** The layout effect of the extruded-text component: the character limit a
    line may reach in the measured container (in UTF-16 code units, as
    JavaScript measures strings), the box height the wrapped
    lines need, the scale of the rendered text, and the material the text
    is drawn with. Numbers are reals; the IEEE-754 special values the source
    can produce are spelled out where they arise. */
module TextLayout {
  import opened Props
  import opened Words
  import opened TextWrap
  import opened RealFacts

  /** `Math.min(Math.floor(containerWidth / (fontSize * 35)), 30)`. With a
      zero font size the division yields +Infinity (capped to 30) for a
      positive width, or NaN/-Infinity otherwise, which no length test
      passes; a limit of 0 behaves the same way. */
  function LineLimit(containerWidth: real, fontSize: real): (limit: int)
    ensures limit <= 30
    ensures fontSize > 0.0 && containerWidth >= 0.0 ==> limit >= 0
    ensures fontSize > 0.0 ==> (limit as real) * (fontSize * 35.0) <= containerWidth
    ensures fontSize > 0.0 ==> limit == 30 || ((limit + 1) as real) * (fontSize * 35.0) > containerWidth
    ensures fontSize == 0.0 && containerWidth > 0.0 ==> limit == 30
    ensures fontSize == 0.0 && containerWidth <= 0.0 ==> limit == 0
  {
    if fontSize == 0.0 then (if containerWidth > 0.0 then 30 else 0)
    else
      var perLine := (containerWidth / (fontSize * 35.0)).Floor;
      if fontSize > 0.0 then
        FloorBounds(containerWidth, fontSize * 35.0);
        if perLine < 30 then perLine else 30
      else
        if perLine < 30 then perLine else 30
  }

  /** A wider container never lowers the line limit. */
  lemma LineLimitMonotone(w1: real, w2: real, fontSize: real)
    requires fontSize > 0.0 && w1 <= w2
    ensures LineLimit(w1, fontSize) <= LineLimit(w2, fontSize)
  {
    DivideMonotone(w1, w2, fontSize * 35.0);
  }

  /** `Math.max(100, lines * fontSize * 50)`. */
  function BoxHeight(lineCount: nat, fontSize: real): (h: real)
    ensures h >= 100.0
    ensures h >= (lineCount as real) * fontSize * 50.0
    ensures h == 100.0 || h == (lineCount as real) * fontSize * 50.0
  {
    var needed := (lineCount as real) * fontSize * 50.0;
    if needed > 100.0 then needed else 100.0
  }

  /** More lines never make the box shorter. */
  lemma BoxHeightMonotone(n1: nat, n2: nat, fontSize: real)
    requires fontSize > 0.0 && n1 <= n2
    ensures BoxHeight(n1, fontSize) <= BoxHeight(n2, fontSize)
  {
    assert (n1 as real) * fontSize <= (n2 as real) * fontSize;
  }

  /** `Math.min(0.8, containerWidth / (length * fontSize * 25))`, where
      `None` stands for NaN (an empty denominator over an empty width); an
      empty denominator over a positive width is +Infinity, capped to 0.8. */
  function TextScale(containerWidth: real, shownLength: nat, fontSize: real): (s: Option<real>)
    requires containerWidth >= 0.0 && fontSize >= 0.0
    ensures s.None? <==> containerWidth == 0.0 && (shownLength as real) * fontSize == 0.0
    ensures s.Some? ==> 0.0 <= s.value <= 0.8
    ensures s.Some? && (shownLength as real) * fontSize > 0.0 ==>
              s.value * (shownLength as real) * fontSize * 25.0 <= containerWidth
    ensures s.Some? && s.value < 0.8 ==>
              s.value * (shownLength as real) * fontSize * 25.0 == containerWidth
  {
    var denominator := (shownLength as real) * fontSize * 25.0;
    if denominator == 0.0 then
      (if containerWidth == 0.0 then None else Some(0.8))
    else
      var fit := containerWidth / denominator;
      Some(if fit < 0.8 then fit else 0.8)
  }

  /** The component state the effect writes. `scale` is `None` when NaN. */
  datatype TextState = TextState(wrapped: string, scale: Option<real>, width: real, height: real)

  /** The state before the first effect: the raw text, scale 1, a 300x100 box. */
  function Initial(children: string): TextState
  {
    TextState(children, Some(1.0), 300.0, 100.0)
  }

  /** The layout effect as the component writes it. It runs only once the
      container is mounted (`containerWidth` present). The new wrapped text
      comes from the fresh lines, but the scale is computed from the length
      of `st.wrapped`, the wrapped text of the PREVIOUS render. Lengths are
      JavaScript's, in UTF-16 code units. */
  function RelayoutAsWritten(st: TextState, children: string, fontSize: real,
                             containerWidth: Option<real>): (r: TextState)
    requires fontSize >= 0.0
    requires containerWidth.Some? ==> containerWidth.value >= 0.0
    ensures containerWidth.None? ==> r == st
    ensures containerWidth.Some? ==>
              && r.wrapped == WrapText(children, LineLimit(containerWidth.value, fontSize))
              && r.scale == TextScale(containerWidth.value, Utf16Length(st.wrapped), fontSize)
              && r.width == containerWidth.value
              && r.height == BoxHeight(|WrapLines(children, LineLimit(containerWidth.value, fontSize))|, fontSize)
  {
    match containerWidth
    case None => st
    case Some(cw) =>
      var lines := WrapLines(children, LineLimit(cw, fontSize));
      TextState(Join(lines, '\n'), TextScale(cw, Utf16Length(st.wrapped), fontSize), cw, BoxHeight(|lines|, fontSize))
  }

  /** The layout effect with the scale taken from the freshly wrapped text. */
  function Relayout(st: TextState, children: string, fontSize: real,
                    containerWidth: Option<real>): (r: TextState)
    requires fontSize >= 0.0
    requires containerWidth.Some? ==> containerWidth.value >= 0.0
    ensures containerWidth.None? ==> r == st
    ensures containerWidth.Some? ==>
              && r.wrapped == WrapText(children, LineLimit(containerWidth.value, fontSize))
              && r.scale == TextScale(containerWidth.value, Utf16Length(r.wrapped), fontSize)
              && r.width == containerWidth.value
              && r.height == BoxHeight(|WrapLines(children, LineLimit(containerWidth.value, fontSize))|, fontSize)
  {
    match containerWidth
    case None => st
    case Some(cw) =>
      var lines := WrapLines(children, LineLimit(cw, fontSize));
      var wrapped := Join(lines, '\n');
      TextState(wrapped, TextScale(cw, Utf16Length(wrapped), fontSize), cw, BoxHeight(|lines|, fontSize))
  }

  /** With the fresh scale, the state after the effect depends only on the
      props and the container, not on what the previous render showed; for
      single-spaced text without line breaks the scale is the scale of the
      text itself, and the box grows with the line count. */
  lemma RelayoutConsistent(st1: TextState, st2: TextState, children: string, fontSize: real, cw: real)
    requires fontSize > 0.0 && cw >= 0.0
    ensures Relayout(st1, children, fontSize, Some(cw)) == Relayout(st2, children, fontSize, Some(cw))
    ensures SingleSpaced(children) && '\n' !in children ==>
              Relayout(st1, children, fontSize, Some(cw)).scale == TextScale(cw, Utf16Length(children), fontSize)
    ensures Relayout(st1, children, fontSize, Some(cw)).height
              >= (|WrapLines(children, LineLimit(cw, fontSize))| as real) * fontSize * 50.0
  {
    if SingleSpaced(children) && '\n' !in children {
      RoundTrip(children, LineLimit(cw, fontSize));
      Utf16Unbreak(WrapText(children, LineLimit(cw, fontSize)));
    }
  }

  /** The first example text is one word. */
  lemma ShortText()
    ensures SingleSpaced("a") && '\n' !in "a"
  {
    SplitWord("a");
  }

  /** The second example text is two words separated by one space. */
  lemma LongText()
    ensures SingleSpaced("a b") && '\n' !in "a b"
  {
    SplitAfterWord("a", "b");
    SplitWord("b");
  }

  /** The JavaScript length of the wrapped text of the two example texts is
      that of the text itself. */
  lemma ShownLength(text: string, limit: int)
    requires text == "a" || text == "a b"
    requires SingleSpaced(text) && '\n' !in text
    ensures Utf16Length(WrapText(text, limit)) == |text|
  {
    RoundTrip(text, limit);
    Utf16Unbreak(WrapText(text, limit));
    Utf16Plain(text);
  }

  /** The stale scale, exhibited: after "a" has been laid out in a 30-wide
      container, changing the text to "a b" keeps the capped scale 0.8
      computed from the one-character text, while the text now shown
      (3 characters) calls for 30 / (3 * 25) = 0.4. */
  lemma StaleScaleExample()
    ensures var before := RelayoutAsWritten(Initial("a"), "a", 1.0, Some(30.0));
            && RelayoutAsWritten(before, "a b", 1.0, Some(30.0)).scale == Some(0.8)
            && Relayout(before, "a b", 1.0, Some(30.0)).scale == Some(0.4)
  {
    var limit := LineLimit(30.0, 1.0);
    var before := RelayoutAsWritten(Initial("a"), "a", 1.0, Some(30.0));
    ShortText();
    ShownLength("a", limit);
    assert Utf16Length(before.wrapped) == 1;
    LongText();
    ShownLength("a b", limit);
    assert TextScale(30.0, 1, 1.0) == Some(0.8);
    assert TextScale(30.0, 3, 1.0) == Some(0.4);
  }

  /** The material drawn on the text: a shader-patched physical material
      when a gradient is given, else a wobbling one when `wobble` is set,
      else a distorting one. */
  datatype TextMaterial = GradientShader | Wobble | Distort

  function MaterialFor(hasGradient: bool, wobble: bool): (m: TextMaterial)
    ensures m == GradientShader <==> hasGradient
    ensures m == Wobble <==> !hasGradient && wobble
    ensures m == Distort <==> !hasGradient && !wobble
  {
    if hasGradient then GradientShader else if wobble then Wobble else Distort
  }
}

=== FILE: text_wrap.dfy ===
/** The greedy word wrapper of the extruded-text component: the text is split
    on single spaces and the words are packed, in order, into lines whose
    length stays within a limit. Lengths are JavaScript string lengths, in
    UTF-16 code units. A word is first tried with a leading space (even when
    it would open a line), and a line is emitted only when it is non-empty. */
module TextWrap {
  import opened Words

  /** The wrapper's loop state: the lines already emitted and the line being
      filled. */
  datatype Pending = Pending(lines: seq<string>, current: string)

  const Start: Pending := Pending([], "")

  /** One iteration of the loop: append `word` to the current line if the
      current line, a space and the word fit within `limit`; otherwise emit
      the current line (when non-empty) and start a new one with `word`. */
  function Place(p: Pending, word: string, limit: int): Pending
  {
    if Utf16Length(p.current + " " + word) <= limit then
      Pending(p.lines, p.current + (if p.current != "" then " " else "") + word)
    else
      Pending(if p.current != "" then p.lines + [p.current] else p.lines, word)
  }

  /** The loop over all words, in order. */
  function PlaceAll(words: seq<string>, limit: int): Pending
    decreases |words|
  {
    if words == [] then Start
    else Place(PlaceAll(words[..|words| - 1], limit), words[|words| - 1], limit)
  }

  /** After the loop: the current line is emitted too, when non-empty. */
  function Flush(p: Pending): seq<string>
  {
    if p.current != "" then p.lines + [p.current] else p.lines
  }

  /** The lines the wrapper produces for `text` under `limit`. */
  function WrapLines(text: string, limit: int): seq<string>
  {
    Flush(PlaceAll(Split(text), limit))
  }

  /** The wrapped text handed to the renderer: the lines joined by line breaks. */
  function WrapText(text: string, limit: int): string
  {
    Join(WrapLines(text, limit), '\n')
  }

  /** The non-empty words of `ws`, in order. */
  function NonEmptyWords(ws: seq<string>): (r: seq<string>)
    decreases |ws|
  {
    if ws == [] then []
    else
      var init := NonEmptyWords(ws[..|ws| - 1]);
      if ws[|ws| - 1] != "" then init + [ws[|ws| - 1]] else init
  }

  /** The wrap loop exactly as the component runs it, over the split words. */
  method Wrap(text: string, limit: int) returns (lines: seq<string>)
    ensures lines == WrapLines(text, limit)
    ensures forall l :: l in lines ==> l != ""
    ensures forall l :: l in lines && ' ' in l ==> Utf16Length(l) <= limit
    ensures |lines| <= |Split(text)|
    ensures SingleSpaced(text) ==> Packed(lines, limit)
  {
    var words := Split(text);
    var current := "";
    lines := [];
    var i := 0;
    while i < |words|
      invariant 0 <= i <= |words|
      invariant Pending(lines, current) == PlaceAll(words[..i], limit)
    {
      assert words[..i + 1][..i] == words[..i];
      var word := words[i];
      if Utf16Length(current + " " + word) <= limit {
        current := current + (if current != "" then " " else "") + word;
      } else {
        if current != "" {
          lines := lines + [current];
        }
        current := word;
      }
      i := i + 1;
    }
    assert words[..i] == words;
    if current != "" {
      lines := lines + [current];
    }
    LinesNonEmpty(text, limit);
    LinesFit(text, limit);
    LineCount(text, limit);
    if SingleSpaced(text) {
      GreedyBreaks(text, limit);
    }
  }

  // ----- invariants of the loop -----

  lemma {:induction false} PlaceAllLinesNonEmpty(ws: seq<string>, limit: int)
    ensures forall l :: l in PlaceAll(ws, limit).lines ==> l != ""
    decreases |ws|
  {
    if ws != [] {
      PlaceAllLinesNonEmpty(ws[..|ws| - 1], limit);
    }
  }

  /** Every emitted line is non-empty: lines are pushed only when the
      current line is non-empty. */
  lemma LinesNonEmpty(text: string, limit: int)
    ensures forall l :: l in WrapLines(text, limit) ==> l != ""
  {
    PlaceAllLinesNonEmpty(Split(text), limit);
  }

  /** A line is within the limit or is a single word taken from `within`. */
  ghost predicate FitsOrWord(l: string, limit: int, within: seq<string>)
  {
    Utf16Length(l) <= limit || l in within
  }

  lemma {:induction false} PlaceAllFits(ws: seq<string>, limit: int, within: seq<string>)
    requires forall w :: w in ws ==> w in within
    ensures forall l :: l in Flush(PlaceAll(ws, limit)) ==> FitsOrWord(l, limit, within)
    decreases |ws|
  {
    if ws != [] {
      var init := ws[..|ws| - 1];
      var w := ws[|ws| - 1];
      assert forall v :: v in init ==> v in ws;
      assert w in ws;
      PlaceAllFits(init, limit, within);
      var p := PlaceAll(init, limit);
      var q := Place(p, w, limit);
      assert PlaceAll(ws, limit) == q;
      if Utf16Length(p.current + " " + w) <= limit {
        if p.current != "" {
          assert q.current == p.current + " " + w;
        } else {
          assert q.current == w;
        }
      }
      assert FitsOrWord(q.current, limit, within);
    }
  }

  /** A line longer than the limit is one word of the text, taken whole;
      consequently every line holding a space fits within the limit. */
  lemma LinesFit(text: string, limit: int)
    ensures forall l :: l in WrapLines(text, limit) ==> Utf16Length(l) <= limit || l in Split(text)
    ensures forall l :: l in WrapLines(text, limit) && ' ' in l ==> Utf16Length(l) <= limit
  {
    PlaceAllFits(Split(text), limit, Split(text));
  }

  lemma PlaceGrowsByOne(p: Pending, w: string, limit: int)
    ensures |Flush(Place(p, w, limit))| <= |Flush(p)| + 1
  {
  }

  lemma {:induction false} PlaceAllCount(ws: seq<string>, limit: int)
    ensures |Flush(PlaceAll(ws, limit))| <= |ws|
    decreases |ws|
  {
    if ws != [] {
      var init := ws[..|ws| - 1];
      PlaceAllCount(init, limit);
      PlaceGrowsByOne(PlaceAll(init, limit), ws[|ws| - 1], limit);
    }
  }

  /** There are never more lines than space-separated words. */
  lemma LineCount(text: string, limit: int)
    ensures |WrapLines(text, limit)| <= |Split(text)|
  {
    PlaceAllCount(Split(text), limit);
  }

  // ----- word order -----

  /** Extending the last line by a space and a word joins like adding the
      word as a line of its own. */
  lemma ExtendKeepsText(lines: seq<string>, current: string, w: string)
    ensures Join(lines + [current + " " + w], ' ') == Join((lines + [current]) + [w], ' ')
  {
    JoinSnoc(lines, current + " " + w, ' ');
    JoinSnoc(lines, current, ' ');
    JoinSnoc(lines + [current], w, ' ');
  }

  /** Placing a non-empty word adds it to the joined text after one space. */
  lemma PlaceKeepsText(p: Pending, w: string, limit: int)
    requires w != ""
    ensures Flush(Place(p, w, limit)) != []
    ensures Join(Flush(Place(p, w, limit)), ' ') == Join(Flush(p) + [w], ' ')
  {
    var q := Place(p, w, limit);
    if Utf16Length(p.current + " " + w) <= limit {
      if p.current != "" {
        assert q == Pending(p.lines, p.current + " " + w);
        ExtendKeepsText(p.lines, p.current, w);
      } else {
        assert q == Pending(p.lines, w);
      }
    } else {
      assert q == Pending(Flush(p), w);
    }
  }

  /** Lists with equal joins still have equal joins after one more element. */
  lemma JoinStep(prev: seq<string>, init: seq<string>, w: string)
    requires Join(prev, ' ') == Join(init, ' ')
    requires (prev == []) == (init == [])
    ensures Join(prev + [w], ' ') == Join(init + [w], ' ')
  {
    JoinSnoc(prev, w, ' ');
    JoinSnoc(init, w, ' ');
  }

  lemma {:induction false} PlaceAllKeepsText(ws: seq<string>, limit: int)
    requires forall i :: 0 <= i < |ws| ==> ws[i] != ""
    ensures Join(Flush(PlaceAll(ws, limit)), ' ') == Join(ws, ' ')
    ensures ws != [] ==> Flush(PlaceAll(ws, limit)) != []
    decreases |ws|
  {
    if ws != [] {
      var init, w := ws[..|ws| - 1], ws[|ws| - 1];
      LastSplit(ws);
      PlaceAllKeepsText(init, limit);
      PlaceAllStep(init, w, limit);
    }
  }

  /** The inductive step: placing one more non-empty word after the words
      placed so far. */
  lemma PlaceAllStep(init: seq<string>, w: string, limit: int)
    requires w != ""
    requires Join(Flush(PlaceAll(init, limit)), ' ') == Join(init, ' ')
    requires init != [] ==> Flush(PlaceAll(init, limit)) != []
    ensures Join(Flush(Place(PlaceAll(init, limit), w, limit)), ' ') == Join(init + [w], ' ')
    ensures Flush(Place(PlaceAll(init, limit), w, limit)) != []
  {
    var p := PlaceAll(init, limit);
    PlaceKeepsText(p, w, limit);
    if init == [] {
      assert p == Start;
    }
    JoinStep(Flush(p), init, w);
  }

  lemma {:induction false} PlaceAllAvoids(ws: seq<string>, limit: int, c: char)
    requires c != ' '
    requires forall w :: w in ws ==> c !in w
    ensures forall l :: l in Flush(PlaceAll(ws, limit)) ==> c !in l
    decreases |ws|
  {
    if ws != [] {
      var init := ws[..|ws| - 1];
      assert ws[|ws| - 1] in ws;
      assert forall w :: w in init ==> w in ws;
      PlaceAllAvoids(init, limit, c);
    }
  }

  /** Word order is preserved: for single-spaced text, joining the lines
      with spaces gives back the text, and when the text has no line break
      of its own, turning the wrapper's line breaks back into spaces gives
      back the text. */
  lemma RoundTrip(text: string, limit: int)
    requires SingleSpaced(text)
    ensures Join(WrapLines(text, limit), ' ') == text
    ensures '\n' !in text ==> Unbreak(WrapText(text, limit)) == text
    ensures '\n' !in text ==> |WrapText(text, limit)| == |text|
  {
    var ws := Split(text);
    assert forall i :: 0 <= i < |ws| ==> ws[i] in ws;
    PlaceAllKeepsText(ws, limit);
    JoinSplit(text);
    if '\n' !in text {
      SplitAvoids(text, '\n');
      PlaceAllAvoids(Split(text), limit, '\n');
      UnbreakJoin(WrapLines(text, limit));
    }
  }

  // ----- greedy packing -----

  /** The first word of a line, up to its first space. */
  function FirstWord(l: string): string
  {
    Split(l)[0]
  }

  /** The break between a line and the next was forced: the next line's
      first word, after a space, would have overflowed the earlier line. */
  predicate Forced(l: string, next: string, limit: int)
  {
    Utf16Length(l + " " + FirstWord(next)) > limit
  }

  /** Every break between consecutive lines is forced. */
  predicate Packed(lines: seq<string>, limit: int)
  {
    forall i :: 0 <= i < |lines| - 1 ==> Forced(lines[i], lines[i + 1], limit)
  }

  /** One placement keeps every break forced: a word that fits extends the
      last line without changing its first word, and a word that does not
      fit opens a line after a break it forced. */
  lemma PlacePacked(p: Pending, w: string, limit: int)
    requires p.current != "" && w != "" && ' ' !in w
    requires Packed(p.lines + [p.current], limit)
    ensures Place(p, w, limit).current != ""
    ensures Packed(Place(p, w, limit).lines + [Place(p, w, limit).current], limit)
  {
    var q := Place(p, w, limit);
    var before := p.lines + [p.current];
    var after := q.lines + [q.current];
    if Utf16Length(p.current + " " + w) <= limit {
      assert q == Pending(p.lines, p.current + " " + w);
      SplitFirst(p.current, w);
      assert |after| == |before|;
      forall i | 0 <= i < |after| - 1
        ensures Forced(after[i], after[i + 1], limit)
      {
        assert after[i] == before[i];
        assert FirstWord(after[i + 1]) == FirstWord(before[i + 1]);
        assert Forced(before[i], before[i + 1], limit);
      }
    } else {
      assert q == Pending(before, w);
      assert after == before + [w];
      SplitWord(w);
      assert FirstWord(w) == w;
      forall i | 0 <= i < |after| - 1
        ensures Forced(after[i], after[i + 1], limit)
      {
        if i < |before| - 1 {
          assert after[i] == before[i] && after[i + 1] == before[i + 1];
          assert Forced(before[i], before[i + 1], limit);
        } else {
          assert after[i] == p.current && after[i + 1] == w;
        }
      }
    }
  }

  lemma {:induction false} PlaceAllPacked(ws: seq<string>, limit: int)
    requires forall i :: 0 <= i < |ws| ==> ws[i] != "" && ' ' !in ws[i]
    ensures ws != [] ==> PlaceAll(ws, limit).current != ""
    ensures ws != [] ==> Packed(PlaceAll(ws, limit).lines + [PlaceAll(ws, limit).current], limit)
    decreases |ws|
  {
    if ws != [] {
      var init, w := ws[..|ws| - 1], ws[|ws| - 1];
      PlaceAllPacked(init, limit);
      var p := PlaceAll(init, limit);
      assert PlaceAll(ws, limit) == Place(p, w, limit);
      if init == [] {
        assert p == Start;
        assert "" + "" + w == w;
        assert Place(p, w, limit) == Pending([], w);
      } else {
        PlacePacked(p, w, limit);
      }
    }
  }

  /** Greedy packing: for single-spaced text a line is broken only when the
      next line's first word, measured after a space, would not have fit on
      it. */
  lemma GreedyBreaks(text: string, limit: int)
    requires SingleSpaced(text)
    ensures Packed(WrapLines(text, limit), limit)
    ensures forall i :: 0 <= i < |WrapLines(text, limit)| - 1 ==>
              Utf16Length(WrapLines(text, limit)[i] + " " + Split(WrapLines(text, limit)[i + 1])[0]) > limit
  {
    var ws := Split(text);
    assert forall i :: 0 <= i < |ws| ==> ws[i] in ws;
    PlaceAllPacked(ws, limit);
  }

  /** Under a limit of 1 or less even a one-character word fails the test
      (it is measured with a leading space), so every non-empty word lands
      on a line of its own and empty words vanish. */
  lemma {:induction false} PlaceAllNarrow(ws: seq<string>, limit: int)
    requires limit <= 1
    ensures Flush(PlaceAll(ws, limit)) == NonEmptyWords(ws)
    decreases |ws|
  {
    if ws != [] {
      PlaceAllNarrow(ws[..|ws| - 1], limit);
    }
  }

  lemma NarrowLimit(text: string, limit: int)
    requires limit <= 1
    ensures WrapLines(text, limit) == NonEmptyWords(Split(text))
  {
    PlaceAllNarrow(Split(text), limit);
  }

  /** A character beyond the Basic Multilingual Plane counts two code units:
      under a limit of 3, " 😀" (3 units) opens the first line, but "😀 a"
      measures 4, so "a" starts a second line although the text has only 3
      characters. */
  lemma AstralExample()
    ensures WrapLines("\U{1F600} a", 3) == ["\U{1F600}", "a"]
  {
    AstralSplit();
    AstralPlaced();
  }

  /** The example text splits into the emoji and "a". */
  lemma AstralSplit()
    ensures Split("\U{1F600} a") == ["\U{1F600}", "a"]
  {
    var e := "\U{1F600}";
    SplitAfterWord(e, "a");
    assert e + [' '] + "a" == "\U{1F600} a";
    SplitWord("a");
  }

  /** The code-unit lengths the two placements measure. */
  lemma AstralLengths()
    ensures Utf16Length(" " + "\U{1F600}") == 3
    ensures Utf16Length("\U{1F600}" + " " + "a") == 4
  {
    var e := "\U{1F600}";
    assert Utf16Length(e) == 2 by {
      assert e[..0] == [];
    }
    assert Utf16Length(" ") == 1 by {
      assert " "[..0] == [];
    }
    assert Utf16Length("a") == 1 by {
      assert "a"[..0] == [];
    }
    Utf16Append(" ", e);
    Utf16Append(e, " ");
    Utf16Append(e + " ", "a");
  }

  /** The emoji opens the first line and "a" does not fit after it. */
  lemma AstralPlaced()
    ensures PlaceAll(["\U{1F600}", "a"], 3) == Pending(["\U{1F600}"], "a")
  {
    var e := "\U{1F600}";
    var ws := [e, "a"];
    AstralLengths();
    assert ws[..1] == [e] && [e][..0] == [];
    assert PlaceAll([], 3) == Start;
    assert "" + " " + e == " " + e;
    var p1 := Place(Start, e, 3);
    assert p1 == Pending([], "" + "" + e);
    assert "" + "" + e == e;
    assert PlaceAll([e], 3) == p1;
    assert PlaceAll(ws, 3) == Place(p1, "a", 3);
  }
}

=== FILE: words.dfy ===
/** The string operations the text wrapper is built from: JavaScript's
    `split(' ')` (every single space is a separator, so consecutive, leading
    or trailing spaces produce empty words), `join(sep)`, and turning line
    breaks back into spaces. */
module Words {

  /** `s.split(' ')`: at least one word, none of them containing a space. */
  function Split(s: string): (words: seq<string>)
    ensures |words| >= 1
    ensures forall w :: w in words ==> ' ' !in w
    decreases |s|
  {
    if s == [] then [""]
    else if s[0] == ' ' then [""] + Split(s[1..])
    else
      var rest := Split(s[1..]);
      [[s[0]] + rest[0]] + rest[1..]
  }

  /** `xs.join(sep)`, written by peeling off the last element. */
  function Join(xs: seq<string>, sep: char): string
  {
    if |xs| == 0 then ""
    else if |xs| == 1 then xs[0]
    else Join(xs[..|xs| - 1], sep) + [sep] + xs[|xs| - 1]
  }

  /** Every line break replaced by a space (`s.replace(/\n/g, ' ')`). */
  function Unbreak(s: string): (r: string)
    ensures |r| == |s|
    ensures forall i :: 0 <= i < |s| ==> r[i] == (if s[i] == '\n' then ' ' else s[i])
  {
    seq(|s|, i requires 0 <= i < |s| => if s[i] == '\n' then ' ' else s[i])
  }

  /** The UTF-16 code units of one character: a character beyond the Basic
      Multilingual Plane is stored as a surrogate pair. */
  function Utf16Units(c: char): nat
  {
    if c as int > 0xFFFF then 2 else 1
  }

  /** JavaScript's `s.length`, which counts UTF-16 code units, not
      characters. */
  function Utf16Length(s: string): (n: nat)
    ensures |s| <= n <= 2 * |s|
    decreases |s|
  {
    if s == [] then 0 else Utf16Length(s[..|s| - 1]) + Utf16Units(s[|s| - 1])
  }

  /** The JavaScript length of a concatenation is the sum of the lengths. */
  lemma {:induction false} Utf16Append(a: string, b: string)
    ensures Utf16Length(a + b) == Utf16Length(a) + Utf16Length(b)
    decreases |b|
  {
    if b == [] {
      assert a + b == a;
    } else {
      var init := b[..|b| - 1];
      assert (a + b)[..|a + b| - 1] == a + init;
      assert (a + b)[|a + b| - 1] == b[|b| - 1];
      Utf16Append(a, init);
      assert Utf16Length(b) == Utf16Length(init) + Utf16Units(b[|b| - 1]);
      assert Utf16Length(a + b) == Utf16Length(a + init) + Utf16Units(b[|b| - 1]);
    }
  }

  /** The JavaScript length equals the character count exactly when every
      character lies in the Basic Multilingual Plane. */
  lemma {:induction false} Utf16Plain(s: string)
    ensures Utf16Length(s) == |s| <==> forall i :: 0 <= i < |s| ==> s[i] as int <= 0xFFFF
    decreases |s|
  {
    if s != [] {
      var init := s[..|s| - 1];
      Utf16Plain(init);
      assert forall i :: 0 <= i < |init| ==> init[i] == s[i];
    }
  }

  /** Text in which no two spaces are adjacent and none leads or trails:
      splitting it on single spaces yields no empty word. */
  predicate SingleSpaced(s: string)
  {
    forall w :: w in Split(s) ==> w != ""
  }

  /** Joining at the front: the separator goes between the first element and
      the join of the rest. */
  lemma {:induction false} JoinCons(a: string, rest: seq<string>, sep: char)
    requires |rest| >= 1
    ensures Join([a] + rest, sep) == a + [sep] + Join(rest, sep)
    decreases |rest|
  {
    var xs := [a] + rest;
    if |rest| == 1 {
      assert xs[..|xs| - 1] == [a];
    } else {
      var init := rest[..|rest| - 1];
      assert xs[..|xs| - 1] == [a] + init;
      JoinCons(a, init, sep);
    }
  }

  /** Joining after appending one element. */
  lemma JoinSnoc(xs: seq<string>, x: string, sep: char)
    ensures Join(xs + [x], sep) == if xs == [] then x else Join(xs, sep) + [sep] + x
  {
    assert (xs + [x])[..|xs + [x]| - 1] == xs;
  }

  /** Prefixing the first element with a character prefixes the join. */
  lemma JoinPrefix(c: char, xs: seq<string>, sep: char)
    requires |xs| >= 1
    ensures Join([[c] + xs[0]] + xs[1..], sep) == [c] + Join(xs, sep)
  {
    if |xs| > 1 {
      JoinCons([c] + xs[0], xs[1..], sep);
      JoinCons(xs[0], xs[1..], sep);
      assert [xs[0]] + xs[1..] == xs;
    }
  }

  /** Splitting then joining gives back the original text. */
  lemma {:induction false} JoinSplit(s: string)
    ensures Join(Split(s), ' ') == s
    decreases |s|
  {
    if s == [] {
    } else if s[0] == ' ' {
      JoinSplit(s[1..]);
      JoinCons("", Split(s[1..]), ' ');
      assert s == [' '] + s[1..];
    } else {
      var t := s[1..];
      var rest := Split(t);
      assert Split(s) == [[s[0]] + rest[0]] + rest[1..];
      JoinSplit(t);
      JoinPrefix(s[0], rest, ' ');
      assert s == [s[0]] + t;
    }
  }

  /** A space-free word splits to itself. */
  lemma {:induction false} SplitWord(a: string)
    requires ' ' !in a
    ensures Split(a) == [a]
    decreases |a|
  {
    if a != [] {
      SplitWord(a[1..]);
      assert a == [a[0]] + a[1..];
    }
  }

  /** A space-free word followed by a space splits off as the first word. */
  lemma {:induction false} SplitAfterWord(a: string, t: string)
    requires ' ' !in a
    ensures Split(a + [' '] + t) == [a] + Split(t)
    decreases |a|
  {
    var s := a + [' '] + t;
    if a == [] {
      assert s == [' '] + t;
      assert s[1..] == t;
    } else {
      assert s[1..] == a[1..] + [' '] + t;
      SplitAfterWord(a[1..], t);
      assert a == [a[0]] + a[1..];
    }
  }

  /** A non-empty list is its prefix with its last element put back. */
  lemma LastSplit(xs: seq<string>)
    requires xs != []
    ensures xs[..|xs| - 1] + [xs[|xs| - 1]] == xs
  {
  }

  /** Appending a space and more text leaves the first word unchanged. */
  lemma {:induction false} SplitFirst(a: string, t: string)
    ensures Split(a + [' '] + t)[0] == Split(a)[0]
    decreases |a|
  {
    var s := a + [' '] + t;
    if a == [] {
      assert s == [' '] + t;
    } else if a[0] == ' ' {
      assert s[0] == ' ';
    } else {
      assert s[0] == a[0];
      assert s[1..] == a[1..] + [' '] + t;
      SplitFirst(a[1..], t);
    }
  }

  /** Joining space-free words then splitting gives back the words. */
  lemma {:induction false} SplitJoin(ws: seq<string>)
    requires |ws| >= 1
    requires forall w :: w in ws ==> ' ' !in w
    ensures Split(Join(ws, ' ')) == ws
    decreases |ws|
  {
    if |ws| == 1 {
      SplitWord(ws[0]);
    } else {
      var rest := ws[1..];
      assert ws == [ws[0]] + rest;
      JoinCons(ws[0], rest, ' ');
      SplitAfterWord(ws[0], Join(rest, ' '));
      SplitJoin(rest);
    }
  }

  /** A character absent from the text is absent from every word of it. */
  lemma {:induction false} SplitAvoids(s: string, c: char)
    requires c !in s
    ensures forall w :: w in Split(s) ==> c !in w
    decreases |s|
  {
    if s != [] {
      SplitAvoids(s[1..], c);
      assert s[0] != c;
    }
  }

  /** Replacing line breaks distributes over concatenation. */
  lemma UnbreakAppend(a: string, b: string)
    ensures Unbreak(a + b) == Unbreak(a) + Unbreak(b)
  {
    var l, r := Unbreak(a + b), Unbreak(a) + Unbreak(b);
    assert |l| == |r|;
    forall i | 0 <= i < |l| ensures l[i] == r[i] {
      if i < |a| {
        assert (a + b)[i] == a[i];
      } else {
        assert (a + b)[i] == b[i - |a|];
      }
    }
  }

  /** Joining break-free lines with line breaks, then replacing the breaks,
      is joining them with spaces. */
  lemma {:induction false} UnbreakJoin(xs: seq<string>)
    requires forall x :: x in xs ==> '\n' !in x
    ensures Unbreak(Join(xs, '\n')) == Join(xs, ' ')
    decreases |xs|
  {
    if |xs| == 1 {
      assert xs[0] in xs;
      assert Unbreak(xs[0]) == xs[0];
    } else if |xs| > 1 {
      var init, last := xs[..|xs| - 1], xs[|xs| - 1];
      assert last in xs;
      assert forall x :: x in init ==> x in xs;
      UnbreakJoin(init);
      UnbreakAppend(Join(init, '\n') + ['\n'], last);
      UnbreakAppend(Join(init, '\n'), ['\n']);
      assert Unbreak(last) == last;
    }
  }

  /** Replacing line breaks keeps the JavaScript length: a line break and a
      space are one code unit each. */
  lemma {:induction false} Utf16Unbreak(s: string)
    ensures Utf16Length(Unbreak(s)) == Utf16Length(s)
    decreases |s|
  {
    if s != [] {
      var init, last := s[..|s| - 1], s[|s| - 1];
      assert s == init + [last];
      UnbreakAppend(init, [last]);
      Utf16Unbreak(init);
      var u := Unbreak(s);
      assert u[..|u| - 1] == Unbreak(init);
    }
  }
}
